=== FILE: README.md ===
# flaskAPI core, modelled in Dafny

This project models the core of the flaskAPI back end of a tutoring school. It covers four parts:

- **Attendance call** (`attendance_call`, app/api/teacher/teacher.py). A teacher submits the
  call list of one class session. The session is stamped as taken, by whom and when. Every
  student on the list is charged one credit of the session's course. Every student marked as
  attending gets a taking-class row with `attended` set.
- **Civil-time helpers** (app/utils/utils.py). These parse ISO 8601 strings with and without
  a UTC offset, convert aware datetimes to UTC (singly and as a list), and define the `Roles`
  constants and the `Relationship` table.
- **Query helpers** (app/dbUtils/dbUtils.py). Each table is a sequence of rows. `.first()`
  returns a matching row. `.all()` returns every copy of each matching row, in table order.
  Soft-deleted rows are skipped, except by `query_student_parents`, which returns every user row.
- **Token revocation list** (app/api/auth/auth_utils.py). Every issued token is stored with a
  `revoked` flag. A token with no row counts as revoked. Revoking first deletes expired rows.

Modules:

| file | module | contents |
|---|---|---|
| wrappers.dfy | `Wrappers` | `Option`, `Result`, `Outcome` |
| roles.dfy | `Roles` | role values and the relationship codes |
| civil_time.dfy | `CivilTime` | proleptic Gregorian calendar, day ordinals as in CPython, instants, `astimezone(UTC)` |
| datetime_format.dfy | `DateTimeFormat` | the `%Y-%m-%dT%H:%M:%S[%z]` grammar, its parser and a renderer |
| models.dfy | `Models` | the table rows |
| db_utils.dfy | `DbUtils` | the `query_*` helpers |
| attendance.dfy | `Attendance` | keyed tables, the three keyed lookups, `attendance_call` |
| token_store.dfy | `TokenStore` | `add_token_to_db`, `is_token_revoked`, `prune_db`, `revoke_token` |

The attendance handler commits after the session stamp and after each row it writes. The model
therefore returns the tables as they stand when the handler stops, together with an outcome:

- `Called`: the loop ran to the end.
- `SessionNotFound`: the session is missing or deleted. Nothing was written.
- `StudentsMissing`: the request carried no `student_ids`. The stamp is already committed
  when iterating `None` raises.
- `KeyConflict(s)`: student `s` needed a new row whose primary key a soft-deleted row holds.
  The lookups skip deleted rows but the INSERT does not, so the commit fails. The rows written
  for earlier students stay committed.

## Model

| member | source | states |
|---|---|---|
| Attendance.AttendanceCall | app/api/teacher/teacher.py:104-145 | A missing or deleted session leaves every table as it was and reports "Cannot find class session". A found session is stamped with the caller, `now` and `attendance_call = True`, and no other session row changes. Without a student list the credit and taking tables stay as they were. Rows stay keyed by their own primary-key columns. |
| Attendance.Stamped | app/api/teacher/teacher.py:107-110 | The stamped session has the call flag, the teacher and the time set; every other column is the original's. |
| Attendance.DebitCredit | app/api/teacher/teacher.py:120-129 | One credit is charged: the balance drops by exactly 1 and a live row exists afterwards, created at -1 when absent. No other credit row changes. The step fails exactly when a soft-deleted row holds the key. |
| Attendance.MarkAttended | app/api/teacher/teacher.py:132-142 | Afterwards a live taking-class row for the student and session says `attended`. No other row changes. The step fails exactly when a soft-deleted row holds the key. |
| Attendance.Roll | app/api/teacher/teacher.py:116-142 | The loop ends with success or a key conflict and never touches the session table. It keeps rows keyed by their own columns. |
| Attendance.RollSucceedsUnlessBlocked | app/api/teacher/teacher.py:116-142 | The loop runs to the end exactly when no listed student needs a row whose key a soft-deleted row holds. |
| Attendance.RollKeepsTombstones | app/api/teacher/teacher.py:116-142 | The loop neither changes nor creates soft-deleted rows: the soft-deleted keys are the same afterwards, and each soft-deleted credit or taking-class row keeps its contents. |
| Attendance.RollDebitsEachListing | app/api/teacher/teacher.py:116-129 | After a completed loop, each student's balance is the initial balance minus the number of times the student is listed, whether or not attending. A student with no live row counts as 0, and every listed student has a live row. |
| Attendance.RollFrame | app/api/teacher/teacher.py:116-142 | Under any outcome, credit rows of other courses or unlisted students stay as they were. Taking-class rows stay as they were unless they belong to this session and a student marked as attending. |
| Attendance.RollMarksAttendance | app/api/teacher/teacher.py:131-142 | After a completed loop, every student marked as attending has a live row with `attended` true. A row that already said so still does. |
| Attendance.AttendanceCallSucceedsUnlessBlocked | app/api/teacher/teacher.py:104-145 | The handler reports success exactly when the session is found and no listed student collides with a soft-deleted row. |
| Attendance.AttendanceCallDebits | app/api/teacher/teacher.py:115-129 | After a successful call, each balance for the session's course is the initial balance minus the student's appearances on the list. A missing row ends at -1 per appearance. |
| Attendance.AttendanceCallFrame | app/api/teacher/teacher.py:115-142 | Other courses, unlisted students and students not attending keep their rows, even when the call stops part-way. |
| Attendance.AttendanceCallMarksAttendance | app/api/teacher/teacher.py:131-142 | After a successful call, every attending student has a live row for the session with `attended` true. |
| Attendance.AttendanceCallTwiceDebitsTwice | app/api/teacher/teacher.py:104-145 | Repeating a successful call with the same list succeeds again and charges every listed student twice in total. The handler is not idempotent. |
| Attendance.QueryClassSession | app/api/teacher/teacher.py:104-106 | A session is found exactly when a row with the id exists and is not soft-deleted, and then it is that row. |
| Attendance.QueryStudentCredit | app/api/teacher/teacher.py:120-121 | A credit row is found exactly when the student's row for the course exists and is not soft-deleted, and then it is that row. |
| Attendance.QueryTakingClass | app/api/teacher/teacher.py:133-134 | A taking-class row is found exactly when the student's row for the session exists and is not soft-deleted, and then it is that row. |
| Attendance.StudentCreditMatchesQuery | app/dbUtils/dbUtils.py:91-93 | On rows with distinct primary keys, the keyed credit lookup returns what the `query_course_credit` filter returns. |
| Attendance.TakingClassMatchesQuery | app/dbUtils/dbUtils.py:109-111 | On rows with distinct primary keys, the keyed taking-class lookup returns what the `query_existing_taking_class` filter returns. |
| Attendance.CreditTableOf | app/models.py:51-52 | A table built from rows with distinct (student_id, course_id) holds every input row under its own key, and nothing else. |
| Attendance.TakingTableOf | app/models.py:102-103 | A table built from rows with distinct (session_id, student_id) holds every input row under its own key, and nothing else. |
| CivilTime.Ordinal | app/utils/utils.py:14 | The day number of a valid date lies in 1..3652059 and within its year's range. |
| CivilTime.OrdinalInjective | app/utils/utils.py:14 | Two valid dates have the same day number exactly when they are the same date. |
| CivilTime.NextDate | app/utils/utils.py:47 | The following day is a valid date whose day number is one greater. |
| CivilTime.PrevDate | app/utils/utils.py:47 | The preceding day is a valid date whose day number is one less. |
| CivilTime.ConvertToUtc | app/utils/utils.py:42-48 | The result is in UTC and denotes the same instant as the input. Conversion fails, as `astimezone` overflows, exactly when that instant lies outside years 1..9999. A value already in UTC comes back unchanged. |
| CivilTime.ConvertToUtcDenotesSameInstant | app/utils/utils.py:42-48 | A UTC value is the conversion of an aware datetime exactly when both denote the same instant. |
| CivilTime.ConvertToUtcIdempotent | app/utils/utils.py:42-48 | Converting a converted value again returns it unchanged. |
| CivilTime.UtcUnique | app/utils/utils.py:42-48 | Two valid UTC datetimes denoting the same instant are equal. |
| CivilTime.DtListToUtcList | app/utils/utils.py:51-58 | The list fails exactly when some element's conversion fails. Otherwise it has the same length and holds each element's conversion at the same position. |
| DateTimeFormat.ParseAware | app/utils/utils.py:36 | An accepted string yields a valid datetime carrying an offset strictly within a day. |
| DateTimeFormat.ParseNaive | app/utils/utils.py:24 | An accepted string yields a valid datetime without an offset. |
| DateTimeFormat.ParseOffset | app/utils/utils.py:11 | `Z`, `+HHMM` and `+HH:MM` offsets decode to whole minutes strictly within a day. |
| DateTimeFormat.OffsetSeconds | app/utils/utils.py:11 | An offset is accepted exactly when its minutes are below 60 and its hours below 24. |
| DateTimeFormat.ParseAwareRenderAware | app/utils/utils.py:30-39 | Parsing the rendering of a valid aware datetime, in any offset style, gives it back. |
| DateTimeFormat.RenderAwareParseAware | app/utils/utils.py:30-39 | Rendering a parsed string in the style it was written in gives the string back. |
| DateTimeFormat.ParseNaiveRenderFields | app/utils/utils.py:18-27 | Parsing the rendering of a valid naive datetime gives it back. |
| DateTimeFormat.RenderFieldsParseNaive | app/utils/utils.py:18-27 | Rendering a parsed naive string gives the string back. |
| DateTimeFormat.DatetimeStringToDatetime | app/utils/utils.py:30-39 | Accepted strings yield aware datetimes. Anything else yields None. |
| DateTimeFormat.DatetimeStringToNaive | app/utils/utils.py:18-27 | Accepted strings yield naive datetimes. A string the naive parser accepts is never accepted by the aware parser. |
| DateTimeFormat.DatetimeStringToUtc | app/utils/utils.py:5-15 | A string the aware parser rejects gives None. Otherwise the result is a UTC datetime for the same instant, or an overflow outside years 1..9999. |
| DateTimeFormat.UtcIsConvertedDatetime | app/utils/utils.py:5-48 | `datetime_string_to_utc` agrees with `convert_to_UTC` applied to `datetime_string_to_datetime`. |
| DateTimeFormat.FebruaryThirtiethRejected | app/utils/utils.py:10-13 | `2021-02-30T10:00:00+08:00` has the right shape but names no date, so the answer is None. |
| DateTimeFormat.ConversionCarriesAcrossMonth | app/utils/utils.py:11-15 | `2021-03-01T01:30:00+08:00` converts to 17:30 UTC on 28 February 2021: the day and month carry back. |
| Roles.RoleValueRoundTrip | app/utils/utils.py:61-70 | Every role decodes from its stored value, and only 0, 1, 2, 4, 8 and 16 decode. |
| Roles.ValuesFollowDeclarationOrder | app/utils/utils.py:61-70 | Role values are distinct and grow in declaration order, from EVERYBODY to ADMIN. |
| Roles.RelationshipCodes | app/utils/utils.py:73-82 | The eight relationship names map to the distinct codes 1..8. |
| DbUtils.QueryExistingUser | app/dbUtils/dbUtils.py:6-11 | The result is a live user with the id, and None exactly when there is no such user. |
| DbUtils.QueryValidatedUser | app/dbUtils/dbUtils.py:14-22 | The result is the live user when validated and None when unvalidated. With no live user, reading `.validated` of None fails. |
| DbUtils.QueryUnvalidatedUsers | app/dbUtils/dbUtils.py:25-30 | Exactly the live, unvalidated users are returned. |
| DbUtils.QueryExistingStudent | app/dbUtils/dbUtils.py:33-38 | The result is a live student with the id, and None exactly when there is none. |
| DbUtils.QueryAllExistingStudents | app/dbUtils/dbUtils.py:41-46 | Exactly the live students are returned. |
| DbUtils.QueryExistingPhoneUser | app/dbUtils/dbUtils.py:49-54 | The result is a live user with the phone number, and None exactly when there is none. |
| DbUtils.QueryExistingOpenidUser | app/dbUtils/dbUtils.py:57-62 | The result is a live user with the WeChat openid, and None exactly when there is none. |
| DbUtils.QueryExistingCourse | app/dbUtils/dbUtils.py:65-67 | The result is a live course with the id, and None exactly when there is none. |
| DbUtils.QueryExistingCoursesAll | app/dbUtils/dbUtils.py:70-75 | Exactly the live courses are returned. |
| DbUtils.QueryExistingTeacher | app/dbUtils/dbUtils.py:78-84 | The result is a live user with the id whose role is exactly TEACHER, and None exactly when there is none. |
| DbUtils.QueryCourseCredit | app/dbUtils/dbUtils.py:87-93 | The result is a live credit row for the course and student, and None exactly when there is none. |
| DbUtils.QueryParentHood | app/dbUtils/dbUtils.py:96-102 | The result is a live parenthood row for the parent and student, and None exactly when there is none. |
| DbUtils.QueryExistingTakingClass | app/dbUtils/dbUtils.py:105-111 | The result is a live taking-class row for the session and student, and None exactly when there is none. |
| DbUtils.QueryExistingClassSessions | app/dbUtils/dbUtils.py:114-124 | Exactly the live sessions are returned whose start lies in the closed window and which a live teaching row links to the teacher, each as often as the session table holds it. The join is a filter over sessions with an existence test on teachings: `Teaching`'s key (session_id, teacher_id) lets at most one teaching row match a session once the teacher is fixed, so the join adds no repeats. |
| DbUtils.QueryStudentParents | app/dbUtils/dbUtils.py:127-136 | Every user row is returned, deleted or not. |
| DbUtils.StudentParentsIgnoresStudent | app/dbUtils/dbUtils.py:127-136 | The answer does not depend on the student asked about. |
| DbUtils.First | app/dbUtils/dbUtils.py:10 | `.first()` returns a matching row, and None exactly when no row matches. |
| DbUtils.Filter | app/dbUtils/dbUtils.py:29 | `.all()` returns exactly the matching rows, each as many times as the table holds it and none of the others, and all rows when every row matches. |
| TokenStore.One | app/api/auth/auth_utils.py:39 | `.one()` returns the row when exactly one row holds the jti. It fails with NoResultFound exactly when no row holds it, and with MultipleResultsFound exactly when several do. |
| TokenStore.AddTokenToDb | app/api/auth/auth_utils.py:14-31 | The table grows by one unrevoked row carrying the token's jti, type, user id and expiry. Earlier rows are kept. |
| TokenStore.IsTokenRevoked | app/api/auth/auth_utils.py:33-42 | A token without a row reads as revoked. A token with exactly one row reads as that row's `revoked` flag. The check fails, with MultipleResultsFound, exactly when several rows hold the jti. |
| TokenStore.PruneDb | app/api/auth/auth_utils.py:53-63 | Exactly the rows expiring at or after `now` remain, and the table does not grow. |
| TokenStore.PruneIsFilter | app/api/auth/auth_utils.py:58-61 | Pruning equals the `.all()` filter on `expires >= now`: the unexpired rows in table order, nothing else. |
| TokenStore.PruneKeepsCopies | app/api/auth/auth_utils.py:58-61 | Every copy of an unexpired row survives pruning and no copy of an expired row does, so live duplicates of a jti stay duplicates. |
| TokenStore.RevokeToken | app/api/auth/auth_utils.py:44-51 | TokenNotFound is raised exactly when every row of the token has expired. The lookup's MultipleResultsFound escapes exactly when several unexpired rows hold the jti, and the revocation succeeds exactly when one does. On failure the table is the pruned one. On success the table holds the pruned rows in order, with at most their `revoked` flag changed and never cleared. |
| TokenStore.AddedTokenIsLive | app/api/auth/auth_utils.py:14-42 | A newly added token with a fresh jti reads as not revoked. |
| TokenStore.AddKeepsOtherTokens | app/api/auth/auth_utils.py:14-42 | Adding a token does not change the answer for any other token. |
| TokenStore.AddedDuplicateBreaksLookup | app/api/auth/auth_utils.py:14-42 | Adding a token whose jti is already stored leaves two rows for it, so the check right after the add raises MultipleResultsFound. It keeps raising while both rows are unexpired; once `prune_db` drops one of them, the check answers again. |
| TokenStore.DuplicateSurvivesPrune | app/api/auth/auth_utils.py:14-63 | After a duplicate add, pruning at any instant at which both rows are still unexpired leaves the check raising MultipleResultsFound. |
| TokenStore.RevokeMarksRevoked | app/api/auth/auth_utils.py:44-51 | After a successful revocation the token reads as revoked. |
| TokenStore.RevokeKeepsOtherTokens | app/api/auth/auth_utils.py:44-51 | Revoking a token leaves every other token answering as it did after pruning. |
| TokenStore.PruneRevokesExpired | app/api/auth/auth_utils.py:33-63 | After pruning, a token whose rows have all expired reads as revoked. |
| TokenStore.PruneKeepsLiveTokens | app/api/auth/auth_utils.py:33-63 | Pruning does not change the answer for a token none of whose rows has expired. |
| TokenStore.RevokedStaysRevoked | app/api/auth/auth_utils.py:33-63 | A token that reads as revoked stays revoked through pruning and through revoking any token. |
| TokenStore.PruneLaterSubsumes | app/api/auth/auth_utils.py:53-63 | Pruning at a later instant, after pruning at an earlier one, equals pruning at the later instant alone. |

## Left out

- HTTP routing, JSON bodies, JWT decoding and the `jwt_roles_required` guard are not modelled. The handler receives the caller's id, the session id and the call list as parameters, and a token arrives already decoded into jti, type, user id and expiry.
- `datetime.utcnow()` is a parameter `now`, in seconds. Token expiry and `now` are POSIX seconds, so the database's comparison of a stored aware expiry against a naive `utcnow()` is modelled as a comparison of integers.
- The helpers `query_class_session`, `query_student_credit` and `query_taking_class` are imported at app/api/teacher/teacher.py:11-12 from app/dbUtils/dbUtils.py, which does not define them. They are modelled as keyed lookups that skip soft-deleted rows, and are tied to the `query_course_credit` and `query_existing_taking_class` filters by lemmas.
- A session whose `course` relation is missing, a list element without `student_id`, and a credit row whose `credit` is NULL are not modelled. The model gives entries an integer id and credit rows an integer credit. A list element without `attended` needs no case of its own: `student.get('attended')` gives None, which `if attended:` treats as false, so such an element behaves exactly like one with `attended` false and is modelled as one.
- Attendance.AttendanceCall: the handler writes a taking-class row only for entries whose `attended` is true, and never writes `attended = False`. `RollFrame` proves that taking-class rows of students not marked as attending are untouched.
- Attendance.AttendanceCall: concurrent calls interleaving their per-row commits are not modelled. Each call is one sequence of state updates.
- Session creation and the `series_id` of recurring sessions are not modelled. The other CRUD handlers of teacher.py and WeChat login are not modelled either.
- CivilTime.ConvertToUtc: microseconds and sub-second UTC offsets are not modelled. `DateTime` has no `microsecond` field and offsets are whole seconds, so the overflow edge at 9999-12-31T23:59:59.999999 and the carrying of microseconds through `astimezone` are outside the model. The same holds for CivilTime.DtListToUtcList.
- CivilTime.ConvertToUtc: naive datetimes are not accepted. `astimezone` on a naive value uses the host's local zone, which is outside the model.
- DateTimeFormat.ParseAware: the grammar is the strict ISO 8601 subset with 4-digit years, 2-digit fields, upper-case `T`, and offsets `Z`, `±HHMM` or `±HH:MM`. Python's `strptime` must match the whole string and strips nothing, but its pattern is wider: it also accepts single-digit month, day, hour, minute and second fields, a space-padded day (` 1`), offsets with seconds or microseconds, any Unicode decimal digit where `\d` appears, and, because the pattern is compiled case-insensitively, a lower-case `t` separator (and a lower-case `z` in the Python versions whose `%z` pattern does not pin its case). Those inputs are outside the model. Within the subset, acceptance matches: seconds 0..59, real calendar dates, and offsets strictly inside ±24 hours.
- DateTimeFormat.ParseNaive: the same strict subset, without an offset.
- DateTimeFormat.DatetimeStringToUtc: non-string arguments, where `strptime` raises TypeError, are not modelled.
- CivilTime.DtListToUtcList: elements must be aware datetimes, as for `ConvertToUtc`.
- DbUtils.First: `.first()` without ORDER BY is the first row in the database's scan order. The contract promises only some matching row.
- DbUtils.QueryExistingClassSessions: the filter at app/dbUtils/dbUtils.py:122 reads `ClassSession.startTime`, while the handlers read `class_session.start_time` (app/api/teacher/teacher.py:84) and app/models.py declares neither. The model assumes the attribute resolves to the session's start time.
- app/api/auth/auth_utils.py:6 imports `TokenBlacklist` from app/models.py, which defines no such class, so no uniqueness constraint on `jti` is known. The table is therefore a sequence of rows with no uniqueness on `jti`, which is why `.one()` can raise `MultipleResultsFound`.
- `print` calls in `prune_db` and `query_student_parents` are output only and are left out.

=== FILE: attendance.dfy ===
/** `attendance_call` of app/api/teacher/teacher.py: a teacher submits the
    call list of one class session; the session is stamped, every listed
    student is charged one credit of the session's course, and every student
    marked as attending gets a taking-class row with `attended` set.

    The three tables are finite maps from primary key to row.  Each database
    commit of the handler is one state update, so a failure part-way leaves
    the earlier updates in place.  Inserting a row whose primary key is held
    by a soft-deleted row fails (the lookups skip deleted rows, the INSERT
    does not); the model reports that as `KeyConflict` and stops there. */
module Attendance {
  import opened Wrappers
  import opened Models
  import DbUtils

  /** Course credits keyed by (student_id, course_id). */
  type CreditTable = map<(int, int), CourseCredit>

  /** Taking-class rows keyed by (session_id, student_id). */
  type TakingTable = map<(int, int), TakingClass>

  /** Class sessions keyed by id. */
  type SessionTable = map<int, ClassSession>

  datatype Tables = Tables(credits: CreditTable, takings: TakingTable, sessions: SessionTable)

  /** One element of `student_ids`: `{"student_id": .., "attended": ..}`. */
  datatype Entry = Entry(studentId: int, attended: bool)

  datatype Outcome =
    | Called            // "Attendance call success"
    | SessionNotFound   // "Cannot find class session"
    | StudentsMissing   // no `student_ids`: iterating None raises TypeError
    | KeyConflict(studentId: int)

  function Get<K, V>(m: map<K, V>, k: K): Option<V> {
    if k in m then Some(m[k]) else None
  }

  /** A soft-deleted row holds key `k`. */
  predicate Tombstoned<K>(m: map<K, CourseCredit>, k: K) {
    k in m && m[k].deleted
  }

  predicate TakingTombstoned<K>(m: map<K, TakingClass>, k: K) {
    k in m && m[k].deleted
  }

  /** Every row sits under the key made of its own primary-key columns. */
  predicate WellKeyed(db: Tables) {
    CreditsKeyed(db.credits) && TakingsKeyed(db.takings) && (forall id :: id in db.sessions ==> db.sessions[id].id == id)
  }

  predicate CreditsKeyed(credits: CreditTable) {
    forall k :: k in credits ==> credits[k].studentId == k.0 && credits[k].courseId == k.1
  }

  predicate TakingsKeyed(takings: TakingTable) {
    forall k :: k in takings ==> takings[k].sessionId == k.0 && takings[k].studentId == k.1
  }

  // ----- The keyed lookups teacher.py imports -----

  /** `query_class_session`: the session with this id unless it is deleted. */
  function QueryClassSession(db: Tables, sessionId: int): (r: Option<ClassSession>)
    ensures r.Some? <==> sessionId in db.sessions && !db.sessions[sessionId].deleted
    ensures r.Some? ==> r.value == db.sessions[sessionId]
  {
    if sessionId in db.sessions && !db.sessions[sessionId].deleted then Some(db.sessions[sessionId]) else None
  }

  /** `query_student_credit`: the live credit row of a student for a course. */
  function QueryStudentCredit(credits: CreditTable, studentId: int, courseId: int): (r: Option<CourseCredit>)
    ensures r.Some? <==> (studentId, courseId) in credits && !credits[(studentId, courseId)].deleted
    ensures r.Some? ==> r.value == credits[(studentId, courseId)]
  {
    var key := (studentId, courseId);
    if key in credits && !credits[key].deleted then Some(credits[key]) else None
  }

  /** `query_taking_class`: the live taking-class row of a student in a session. */
  function QueryTakingClass(takings: TakingTable, studentId: int, sessionId: int): (r: Option<TakingClass>)
    ensures r.Some? <==> (sessionId, studentId) in takings && !takings[(sessionId, studentId)].deleted
    ensures r.Some? ==> r.value == takings[(sessionId, studentId)]
  {
    var key := (sessionId, studentId);
    if key in takings && !takings[key].deleted then Some(takings[key]) else None
  }

  /** No two rows of a list share the (student_id, course_id) primary key. */
  predicate DistinctCreditKeys(rows: seq<CourseCredit>) {
    forall a, b :: a in rows && b in rows && a.studentId == b.studentId && a.courseId == b.courseId ==> a == b
  }

  /** No two rows of a list share the (session_id, student_id) primary key. */
  predicate DistinctTakingKeys(rows: seq<TakingClass>) {
    forall a, b :: a in rows && b in rows && a.sessionId == b.sessionId && a.studentId == b.studentId ==> a == b
  }

  /** The course-credit table holding exactly the given rows. */
  function CreditTableOf(rows: seq<CourseCredit>): (t: CreditTable)
    requires DistinctCreditKeys(rows)
    ensures CreditsKeyed(t)
    ensures forall r :: r in rows ==> (r.studentId, r.courseId) in t && t[(r.studentId, r.courseId)] == r
    ensures forall k :: k in t ==> t[k] in rows
  {
    map r | r in rows :: (r.studentId, r.courseId) := r
  }

  /** The taking-class table holding exactly the given rows. */
  function TakingTableOf(rows: seq<TakingClass>): (t: TakingTable)
    requires DistinctTakingKeys(rows)
    ensures TakingsKeyed(t)
    ensures forall r :: r in rows ==> (r.sessionId, r.studentId) in t && t[(r.sessionId, r.studentId)] == r
    ensures forall k :: k in t ==> t[k] in rows
  {
    map r | r in rows :: (r.sessionId, r.studentId) := r
  }

  /** The keyed credit lookup answers what the filter of `query_course_credit`
      answers on the same rows. */
  lemma StudentCreditMatchesQuery(rows: seq<CourseCredit>, studentId: int, courseId: int)
    requires DistinctCreditKeys(rows)
    ensures QueryStudentCredit(CreditTableOf(rows), studentId, courseId) == DbUtils.QueryCourseCredit(rows, courseId, studentId)
  {
    var t := CreditTableOf(rows);
    var key := (studentId, courseId);
    var q := DbUtils.QueryCourseCredit(rows, courseId, studentId);
    if q.Some? {
      assert key in t && t[key] in rows;
    } else if key in t {
      assert t[key] in rows;
    }
  }

  /** The keyed taking-class lookup answers what the filter of
      `query_existing_taking_class` answers on the same rows. */
  lemma TakingClassMatchesQuery(rows: seq<TakingClass>, studentId: int, sessionId: int)
    requires DistinctTakingKeys(rows)
    ensures QueryTakingClass(TakingTableOf(rows), studentId, sessionId) == DbUtils.QueryExistingTakingClass(rows, sessionId, studentId)
  {
    var t := TakingTableOf(rows);
    var key := (sessionId, studentId);
    var q := DbUtils.QueryExistingTakingClass(rows, sessionId, studentId);
    if q.Some? {
      assert key in t && t[key] in rows;
    } else if key in t {
      assert t[key] in rows;
    }
  }

  /** The balance a student holds for a course: the live row's credit, or 0. */
  function Balance(credits: CreditTable, studentId: int, courseId: int): int {
    match QueryStudentCredit(credits, studentId, courseId)
    case Some(row) => row.credit
    case None => 0
  }

  // ----- One student of the call list -----

  /** Charges one credit: debits the live row, or creates the row at -1.
      None when a soft-deleted row holds the key the new row would take. */
  function DebitCredit(credits: CreditTable, studentId: int, courseId: int): (r: Option<CreditTable>)
    ensures r.None? <==> Tombstoned(credits, (studentId, courseId))
    ensures r.Some? ==> Balance(r.value, studentId, courseId) == Balance(credits, studentId, courseId) - 1
    ensures r.Some? ==> QueryStudentCredit(r.value, studentId, courseId).Some?
    ensures r.Some? ==> forall k :: k != (studentId, courseId) ==> Get(r.value, k) == Get(credits, k)
    ensures r.Some? && CreditsKeyed(credits) ==> CreditsKeyed(r.value)
  {
    var key := (studentId, courseId);
    match QueryStudentCredit(credits, studentId, courseId)
    case Some(row) => Some(credits[key := row.(credit := row.credit - 1)])
    case None =>
      if key in credits then None
      else Some(credits[key := CourseCredit(studentId, courseId, false, -1)])
  }

  /** Records attendance: sets `attended` on the live row, or creates the row.
      None when a soft-deleted row holds the key the new row would take. */
  function MarkAttended(takings: TakingTable, studentId: int, sessionId: int): (r: Option<TakingTable>)
    ensures r.None? <==> TakingTombstoned(takings, (sessionId, studentId))
    ensures r.Some? ==> QueryTakingClass(r.value, studentId, sessionId).Some?
    ensures r.Some? ==> QueryTakingClass(r.value, studentId, sessionId).value.attended
    ensures r.Some? ==> forall k :: k != (sessionId, studentId) ==> Get(r.value, k) == Get(takings, k)
    ensures r.Some? && TakingsKeyed(takings) ==> TakingsKeyed(r.value)
  {
    var key := (sessionId, studentId);
    match QueryTakingClass(takings, studentId, sessionId)
    case Some(row) => Some(takings[key := row.(attended := true)])
    case None =>
      if key in takings then None
      else Some(takings[key := TakingClass(sessionId, studentId, false, true)])
  }

  // ----- The loop over the call list -----

  /** The `for student in students` loop, for a session of course `courseId`. */
  function Roll(db: Tables, sessionId: int, courseId: int, students: seq<Entry>): (r: (Tables, Outcome))
    ensures r.1 == Called || r.1.KeyConflict?
    ensures r.0.sessions == db.sessions
    ensures WellKeyed(db) ==> WellKeyed(r.0)
    decreases |students|
  {
    if |students| == 0 then (db, Called)
    else
      var entry := students[0];
      match DebitCredit(db.credits, entry.studentId, courseId)
      case None => (db, KeyConflict(entry.studentId))
      case Some(credits) =>
        var debited := db.(credits := credits);
        if !entry.attended then
          Roll(debited, sessionId, courseId, students[1..])
        else
          match MarkAttended(debited.takings, entry.studentId, sessionId)
          case None => (debited, KeyConflict(entry.studentId))
          case Some(takings) => Roll(debited.(takings := takings), sessionId, courseId, students[1..])
  }

  /** `attendance_call` with the caller's id and `datetime.utcnow()` as parameters. */
  function AttendanceCall(db: Tables, teacherId: int, sessionId: int, students: Option<seq<Entry>>, now: int)
    : (r: (Tables, Outcome))
    ensures QueryClassSession(db, sessionId).None? ==> r == (db, SessionNotFound)
    ensures QueryClassSession(db, sessionId).Some? ==>
      && r.1 != SessionNotFound
      && r.0.sessions == db.sessions[sessionId := Stamped(db.sessions[sessionId], teacherId, now)]
    ensures QueryClassSession(db, sessionId).Some? && students.None? ==>
      r.1 == StudentsMissing && r.0.credits == db.credits && r.0.takings == db.takings
    ensures WellKeyed(db) ==> WellKeyed(r.0)
  {
    match QueryClassSession(db, sessionId)
    case None => (db, SessionNotFound)
    case Some(session) =>
      var stamped := db.(sessions := db.sessions[sessionId := Stamped(session, teacherId, now)]);
      match students
      case None => (stamped, StudentsMissing)
      case Some(list) => Roll(stamped, sessionId, session.courseId, list)
  }

  /** The session after the call: taken, by `teacherId`, at `now`. */
  function Stamped(session: ClassSession, teacherId: int, now: int): (s: ClassSession)
    ensures s.attendanceCall && s.attendanceTeacherId == Some(teacherId) && s.attendanceTime == Some(now)
    ensures s.(attendanceCall := session.attendanceCall,
               attendanceTeacherId := session.attendanceTeacherId,
               attendanceTime := session.attendanceTime) == session
  {
    session.(attendanceCall := true, attendanceTeacherId := Some(teacherId), attendanceTime := Some(now))
  }

  // ----- Facts about the call list -----

  /** How many times a student appears on the call list. */
  function Count(students: seq<Entry>, studentId: int): nat {
    if |students| == 0 then 0
    else (if students[0].studentId == studentId then 1 else 0) + Count(students[1..], studentId)
  }

  /** Some entry for the student is marked as attending. */
  predicate Attends(students: seq<Entry>, studentId: int) {
    exists i :: 0 <= i < |students| && students[i].studentId == studentId && students[i].attended
  }

  /** The rows an entry writes would collide with a soft-deleted row. */
  predicate EntryBlocked(db: Tables, sessionId: int, courseId: int, entry: Entry) {
    || Tombstoned(db.credits, (entry.studentId, courseId))
    || (entry.attended && TakingTombstoned(db.takings, (sessionId, entry.studentId)))
  }

  predicate Blocked(db: Tables, sessionId: int, courseId: int, students: seq<Entry>) {
    exists i :: 0 <= i < |students| && EntryBlocked(db, sessionId, courseId, students[i])
  }

  lemma {:induction false} TailFacts(students: seq<Entry>, db: Tables, sessionId: int, courseId: int, studentId: int)
    requires |students| > 0
    ensures Attends(students, studentId) <==>
      (students[0].studentId == studentId && students[0].attended) || Attends(students[1..], studentId)
    ensures Blocked(db, sessionId, courseId, students) <==>
      EntryBlocked(db, sessionId, courseId, students[0]) || Blocked(db, sessionId, courseId, students[1..])
  {
    var rest := students[1..];
    assert forall j :: 0 <= j < |rest| ==> rest[j] == students[j + 1];
    if Attends(students, studentId) && !(students[0].studentId == studentId && students[0].attended) {
      var i :| 0 <= i < |students| && students[i].studentId == studentId && students[i].attended;
      assert rest[i - 1] == students[i];
    }
    if Blocked(db, sessionId, courseId, students) && !EntryBlocked(db, sessionId, courseId, students[0]) {
      var i :| 0 <= i < |students| && EntryBlocked(db, sessionId, courseId, students[i]);
      assert rest[i - 1] == students[i];
    }
  }

  /** Soft-deleted rows are never touched, and no row becomes soft-deleted:
      the set of soft-deleted keys is the same afterwards, and each
      soft-deleted row keeps its contents. */
  lemma {:induction false} RollKeepsTombstones(db: Tables, sessionId: int, courseId: int, students: seq<Entry>)
    ensures forall k :: Tombstoned(Roll(db, sessionId, courseId, students).0.credits, k) <==> Tombstoned(db.credits, k)
    ensures forall k :: TakingTombstoned(Roll(db, sessionId, courseId, students).0.takings, k) <==> TakingTombstoned(db.takings, k)
    ensures forall k :: Tombstoned(db.credits, k) ==> Get(Roll(db, sessionId, courseId, students).0.credits, k) == Get(db.credits, k)
    ensures forall k :: TakingTombstoned(db.takings, k) ==> Get(Roll(db, sessionId, courseId, students).0.takings, k) == Get(db.takings, k)
    decreases |students|
  {
    if |students| > 0 {
      var entry := students[0];
      var key := (entry.studentId, courseId);
      var credits := DebitCredit(db.credits, entry.studentId, courseId);
      if credits.Some? {
        var debited := db.(credits := credits.value);
        assert forall k :: Tombstoned(debited.credits, k) <==> Tombstoned(db.credits, k) by {
          forall k ensures Tombstoned(debited.credits, k) <==> Tombstoned(db.credits, k) {
            if k != key { assert Get(debited.credits, k) == Get(db.credits, k); }
          }
        }
        assert forall k :: Tombstoned(db.credits, k) ==> Get(debited.credits, k) == Get(db.credits, k);
        if !entry.attended {
          RollKeepsTombstones(debited, sessionId, courseId, students[1..]);
        } else {
          var tkey := (sessionId, entry.studentId);
          var takings := MarkAttended(debited.takings, entry.studentId, sessionId);
          if takings.Some? {
            var marked := debited.(takings := takings.value);
            assert forall k :: TakingTombstoned(marked.takings, k) <==> TakingTombstoned(db.takings, k) by {
              forall k ensures TakingTombstoned(marked.takings, k) <==> TakingTombstoned(db.takings, k) {
                if k != tkey { assert Get(marked.takings, k) == Get(db.takings, k); }
              }
            }
            assert forall k :: TakingTombstoned(db.takings, k) ==> Get(marked.takings, k) == Get(db.takings, k);
            RollKeepsTombstones(marked, sessionId, courseId, students[1..]);
          }
        }
      }
    }
  }

  /** The loop runs to the end exactly when no listed student needs a row
      whose key a soft-deleted row holds. */
  lemma {:induction false} RollSucceedsUnlessBlocked(db: Tables, sessionId: int, courseId: int, students: seq<Entry>)
    ensures Roll(db, sessionId, courseId, students).1 == Called <==> !Blocked(db, sessionId, courseId, students)
    decreases |students|
  {
    if |students| > 0 {
      var entry := students[0];
      TailFacts(students, db, sessionId, courseId, entry.studentId);
      var credits := DebitCredit(db.credits, entry.studentId, courseId);
      if credits.Some? {
        var debited := db.(credits := credits.value);
        var key := (entry.studentId, courseId);
        forall k ensures Tombstoned(debited.credits, k) <==> Tombstoned(db.credits, k) {
          if k != key { assert Get(debited.credits, k) == Get(db.credits, k); }
        }
        if !entry.attended {
          RollSucceedsUnlessBlocked(debited, sessionId, courseId, students[1..]);
          BlockedDependsOnTombstones(db, debited, sessionId, courseId, students[1..]);
        } else {
          var takings := MarkAttended(debited.takings, entry.studentId, sessionId);
          if takings.Some? {
            var marked := debited.(takings := takings.value);
            var tkey := (sessionId, entry.studentId);
            forall k ensures TakingTombstoned(marked.takings, k) <==> TakingTombstoned(db.takings, k) {
              if k != tkey { assert Get(marked.takings, k) == Get(db.takings, k); }
            }
            RollSucceedsUnlessBlocked(marked, sessionId, courseId, students[1..]);
            BlockedDependsOnTombstones(db, marked, sessionId, courseId, students[1..]);
          }
        }
      }
    }
  }

  lemma BlockedDependsOnTombstones(a: Tables, b: Tables, sessionId: int, courseId: int, students: seq<Entry>)
    requires forall k :: Tombstoned(a.credits, k) <==> Tombstoned(b.credits, k)
    requires forall k :: TakingTombstoned(a.takings, k) <==> TakingTombstoned(b.takings, k)
    ensures Blocked(a, sessionId, courseId, students) <==> Blocked(b, sessionId, courseId, students)
  {
    assert forall e :: EntryBlocked(a, sessionId, courseId, e) <==> EntryBlocked(b, sessionId, courseId, e);
  }

  /** A completed loop charges each student one credit per appearance on the
      list: final balance = initial balance (0 for no live row) - appearances. */
  lemma {:induction false} RollDebitsEachListing(db: Tables, sessionId: int, courseId: int, students: seq<Entry>, studentId: int)
    requires Roll(db, sessionId, courseId, students).1 == Called
    ensures Balance(Roll(db, sessionId, courseId, students).0.credits, studentId, courseId)
         == Balance(db.credits, studentId, courseId) - Count(students, studentId)
    ensures Count(students, studentId) > 0 ==>
      QueryStudentCredit(Roll(db, sessionId, courseId, students).0.credits, studentId, courseId).Some?
    decreases |students|
  {
    if |students| > 0 {
      var entry := students[0];
      var credits := DebitCredit(db.credits, entry.studentId, courseId).value;
      var debited := db.(credits := credits);
      if entry.studentId != studentId {
        assert Get(credits, (studentId, courseId)) == Get(db.credits, (studentId, courseId));
      }
      var next := if !entry.attended then debited
                  else debited.(takings := MarkAttended(debited.takings, entry.studentId, sessionId).value);
      assert next.credits == credits;
      RollDebitsEachListing(next, sessionId, courseId, students[1..], studentId);
      if Count(students[1..], studentId) == 0 && entry.studentId == studentId {
        RollFrame(next, sessionId, courseId, students[1..]);
        assert Get(Roll(next, sessionId, courseId, students[1..]).0.credits, (studentId, courseId))
            == Get(next.credits, (studentId, courseId));
      }
    }
  }

  /** Whatever the outcome, the loop leaves alone the credit rows of other
      courses and of unlisted students, and the taking-class rows of other
      sessions and of students not marked as attending. */
  lemma {:induction false} RollFrame(db: Tables, sessionId: int, courseId: int, students: seq<Entry>)
    ensures forall k: (int, int) :: k.1 != courseId || Count(students, k.0) == 0 ==>
      Get(Roll(db, sessionId, courseId, students).0.credits, k) == Get(db.credits, k)
    ensures forall k: (int, int) :: k.0 != sessionId || !Attends(students, k.1) ==>
      Get(Roll(db, sessionId, courseId, students).0.takings, k) == Get(db.takings, k)
    decreases |students|
  {
    if |students| > 0 {
      var entry := students[0];
      var rest := students[1..];
      forall s ensures Attends(students, s) <==> (entry.studentId == s && entry.attended) || Attends(rest, s) {
        TailFacts(students, db, sessionId, courseId, s);
      }
      var credits := DebitCredit(db.credits, entry.studentId, courseId);
      if credits.Some? {
        var debited := db.(credits := credits.value);
        if !entry.attended {
          RollFrame(debited, sessionId, courseId, rest);
        } else {
          var takings := MarkAttended(debited.takings, entry.studentId, sessionId);
          if takings.Some? {
            RollFrame(debited.(takings := takings.value), sessionId, courseId, rest);
          }
        }
      }
    }
  }

  /** After a completed loop every student marked as attending has a live
      taking-class row for the session with `attended == True`; rows that
      already said so keep saying so. */
  lemma {:induction false} RollMarksAttendance(db: Tables, sessionId: int, courseId: int, students: seq<Entry>, studentId: int)
    requires Roll(db, sessionId, courseId, students).1 == Called
    requires Attends(students, studentId)
      || (QueryTakingClass(db.takings, studentId, sessionId).Some? && QueryTakingClass(db.takings, studentId, sessionId).value.attended)
    ensures QueryTakingClass(Roll(db, sessionId, courseId, students).0.takings, studentId, sessionId).Some?
    ensures QueryTakingClass(Roll(db, sessionId, courseId, students).0.takings, studentId, sessionId).value.attended
    decreases |students|
  {
    if |students| == 0 {
      assert !Attends(students, studentId);
    } else {
      var entry := students[0];
      TailFacts(students, db, sessionId, courseId, studentId);
      var debited := db.(credits := DebitCredit(db.credits, entry.studentId, courseId).value);
      if !entry.attended {
        RollMarksAttendance(debited, sessionId, courseId, students[1..], studentId);
      } else {
        var takings := MarkAttended(debited.takings, entry.studentId, sessionId).value;
        if entry.studentId != studentId {
          assert Get(takings, (sessionId, studentId)) == Get(db.takings, (sessionId, studentId));
        }
        RollMarksAttendance(debited.(takings := takings), sessionId, courseId, students[1..], studentId);
      }
    }
  }

  // ----- The same facts for the whole handler -----

  /** The course a found session belongs to. */
  function CourseOf(db: Tables, sessionId: int): int
    requires QueryClassSession(db, sessionId).Some?
  {
    db.sessions[sessionId].courseId
  }

  /** The call completes exactly when the session exists, the list is given
      and no listed student collides with a soft-deleted row. */
  lemma AttendanceCallSucceedsUnlessBlocked(db: Tables, teacherId: int, sessionId: int, students: seq<Entry>, now: int)
    ensures AttendanceCall(db, teacherId, sessionId, Some(students), now).1 == Called <==>
      QueryClassSession(db, sessionId).Some? && !Blocked(db, sessionId, CourseOf(db, sessionId), students)
  {
    if QueryClassSession(db, sessionId).Some? {
      var stamped := db.(sessions := db.sessions[sessionId := Stamped(db.sessions[sessionId], teacherId, now)]);
      RollSucceedsUnlessBlocked(stamped, sessionId, CourseOf(db, sessionId), students);
      BlockedDependsOnTombstones(db, stamped, sessionId, CourseOf(db, sessionId), students);
    }
  }

  /** Each entry on the list costs its student exactly one credit of the
      session's course, whether or not it attended; a student with no live
      row ends at minus the number of appearances. */
  lemma AttendanceCallDebits(db: Tables, teacherId: int, sessionId: int, students: seq<Entry>, now: int, studentId: int)
    requires AttendanceCall(db, teacherId, sessionId, Some(students), now).1 == Called
    ensures QueryClassSession(db, sessionId).Some?
    ensures Balance(AttendanceCall(db, teacherId, sessionId, Some(students), now).0.credits, studentId, CourseOf(db, sessionId))
         == Balance(db.credits, studentId, CourseOf(db, sessionId)) - Count(students, studentId)
    ensures Count(students, studentId) > 0 ==>
      QueryStudentCredit(AttendanceCall(db, teacherId, sessionId, Some(students), now).0.credits,
                         studentId, CourseOf(db, sessionId)).Some?
  {
    var stamped := db.(sessions := db.sessions[sessionId := Stamped(db.sessions[sessionId], teacherId, now)]);
    RollDebitsEachListing(stamped, sessionId, CourseOf(db, sessionId), students, studentId);
  }

  /** A student absent from the list, or any other course, keeps its credit
      row exactly; only taking-class rows of attending students of this
      session can change.  This holds even when the call stops part-way. */
  lemma AttendanceCallFrame(db: Tables, teacherId: int, sessionId: int, students: seq<Entry>, now: int)
    requires QueryClassSession(db, sessionId).Some?
    ensures forall k: (int, int) :: k.1 != CourseOf(db, sessionId) || Count(students, k.0) == 0 ==>
      Get(AttendanceCall(db, teacherId, sessionId, Some(students), now).0.credits, k) == Get(db.credits, k)
    ensures forall k: (int, int) :: k.0 != sessionId || !Attends(students, k.1) ==>
      Get(AttendanceCall(db, teacherId, sessionId, Some(students), now).0.takings, k) == Get(db.takings, k)
  {
    var stamped := db.(sessions := db.sessions[sessionId := Stamped(db.sessions[sessionId], teacherId, now)]);
    RollFrame(stamped, sessionId, CourseOf(db, sessionId), students);
  }

  /** Every student marked as attending ends with a live row for the session
      saying `attended == True`; the row is created if it was absent. */
  lemma AttendanceCallMarksAttendance(db: Tables, teacherId: int, sessionId: int, students: seq<Entry>, now: int, studentId: int)
    requires AttendanceCall(db, teacherId, sessionId, Some(students), now).1 == Called
    requires Attends(students, studentId)
    ensures QueryTakingClass(AttendanceCall(db, teacherId, sessionId, Some(students), now).0.takings, studentId, sessionId).Some?
    ensures QueryTakingClass(AttendanceCall(db, teacherId, sessionId, Some(students), now).0.takings, studentId, sessionId).value.attended
  {
    var stamped := db.(sessions := db.sessions[sessionId := Stamped(db.sessions[sessionId], teacherId, now)]);
    RollMarksAttendance(stamped, sessionId, CourseOf(db, sessionId), students, studentId);
  }

  /** Taking attendance twice on the same session with the same list charges
      every listed student twice: the handler is not idempotent. */
  lemma AttendanceCallTwiceDebitsTwice(
    db: Tables, teacher1: int, teacher2: int, sessionId: int, students: seq<Entry>, now1: int, now2: int, studentId: int)
    requires AttendanceCall(db, teacher1, sessionId, Some(students), now1).1 == Called
    ensures var once := AttendanceCall(db, teacher1, sessionId, Some(students), now1).0;
      && QueryClassSession(db, sessionId).Some?
      && AttendanceCall(once, teacher2, sessionId, Some(students), now2).1 == Called
      && Balance(AttendanceCall(once, teacher2, sessionId, Some(students), now2).0.credits, studentId, CourseOf(db, sessionId))
         == Balance(db.credits, studentId, CourseOf(db, sessionId)) - 2 * Count(students, studentId)
  {
    var once := AttendanceCall(db, teacher1, sessionId, Some(students), now1).0;
    var course := CourseOf(db, sessionId);
    var stamped := db.(sessions := db.sessions[sessionId := Stamped(db.sessions[sessionId], teacher1, now1)]);
    AttendanceCallDebits(db, teacher1, sessionId, students, now1, studentId);
    assert QueryClassSession(once, sessionId).Some? && CourseOf(once, sessionId) == course;
    AttendanceCallSucceedsUnlessBlocked(db, teacher1, sessionId, students, now1);
    RollKeepsTombstones(stamped, sessionId, course, students);
    BlockedDependsOnTombstones(db, once, sessionId, course, students);
    AttendanceCallSucceedsUnlessBlocked(once, teacher2, sessionId, students, now2);
    AttendanceCallDebits(once, teacher2, sessionId, students, now2, studentId);
  }
}

=== FILE: civil_time.dfy ===
/** Civil-calendar arithmetic behind the time helpers of app/utils/utils.py.

    Python's `datetime` holds proleptic-Gregorian dates of years 1..9999 and
    counts days with an ordinal (0001-01-01 is day 1).  An aware value carries
    a UTC offset in seconds, strictly inside one day.  `astimezone(pytz.utc)`
    subtracts the offset and carries the day, month and year; a result outside
    the representable range raises `OverflowError`. */
module CivilTime {
  import opened Wrappers

  const MinYear: int := 1
  const MaxYear: int := 9999
  const SecondsPerDay: int := 86400
  /** Ordinal of 9999-12-31, the last representable day. */
  const MaxOrdinal: int := 3652059
  /** Instant of 9999-12-31T23:59:59Z, counted in seconds from 0001-01-01T00:00:00Z. */
  const MaxInstant: int := MaxOrdinal * SecondsPerDay - 1

  datatype TimeError = OverflowError

  datatype Date = Date(year: int, month: int, day: int)

  /** A Python datetime; `utcOffset` is None for a naive value and the offset
      east of UTC, in seconds, for an aware one. */
  datatype DateTime = DateTime(
    year: int, month: int, day: int,
    hour: int, minute: int, second: int,
    utcOffset: Option<int>)
  {
    function DateOf(): Date {
      Date(year, month, day)
    }
  }

  predicate IsLeapYear(year: int) {
    year % 4 == 0 && (year % 100 != 0 || year % 400 == 0)
  }

  function DaysInYear(year: int): int {
    if IsLeapYear(year) then 366 else 365
  }

  function DaysInMonth(year: int, month: int): int
    requires 1 <= month <= 12
  {
    if month == 2 then (if IsLeapYear(year) then 29 else 28)
    else if month == 4 || month == 6 || month == 9 || month == 11 then 30
    else 31
  }

  /** Days of `year` before the first of `month` (CPython's `_days_before_month`). */
  function DaysBeforeMonth(year: int, month: int): int
    requires 1 <= month <= 12
  {
    var common := [0, 31, 59, 90, 120, 151, 181, 212, 243, 273, 304, 334][month - 1];
    if month > 2 && IsLeapYear(year) then common + 1 else common
  }

  /** Days before January 1 of `year` (CPython's `_days_before_year`). */
  function DaysBeforeYear(year: int): int {
    var y := year - 1;
    365 * y + y / 4 - y / 100 + y / 400
  }

  predicate ValidDate(d: Date) {
    && MinYear <= d.year <= MaxYear
    && 1 <= d.month <= 12
    && 1 <= d.day <= DaysInMonth(d.year, d.month)
  }

  function DayOfYear(d: Date): int
    requires 1 <= d.month <= 12
  {
    DaysBeforeMonth(d.year, d.month) + d.day
  }

  /** The proleptic Gregorian ordinal (CPython's `_ymd2ord`). */
  function Ordinal(d: Date): (n: int)
    requires ValidDate(d)
    ensures 1 <= n <= MaxOrdinal
    ensures DaysBeforeYear(d.year) < n <= DaysBeforeYear(d.year) + DaysInYear(d.year)
  {
    OrdinalBounds(d);
    DaysBeforeYear(d.year) + DayOfYear(d)
  }

  lemma DaysBeforeYearStep(year: int)
    ensures DaysBeforeYear(year + 1) == DaysBeforeYear(year) + DaysInYear(year)
  {
    var y := year - 1;
    assert year / 4 - y / 4 == (if year % 4 == 0 then 1 else 0);
    assert year / 100 - y / 100 == (if year % 100 == 0 then 1 else 0);
    assert year / 400 - y / 400 == (if year % 400 == 0 then 1 else 0);
  }

  lemma DaysBeforeYearMonotone(a: int, b: int)
    requires a <= b
    ensures DaysBeforeYear(a) <= DaysBeforeYear(b)
  {
    var x, y := a - 1, b - 1;
    assert x / 4 <= y / 4;
    assert x / 400 <= y / 400;
    assert y / 100 - x / 100 <= y - x;
  }

  lemma MonthFitsInYear(year: int, month: int)
    requires 1 <= month <= 12
    ensures 0 <= DaysBeforeMonth(year, month)
    ensures DaysBeforeMonth(year, month) + DaysInMonth(year, month) <= DaysInYear(year)
  {
  }

  lemma OrdinalBounds(d: Date)
    requires ValidDate(d)
    ensures DaysBeforeYear(d.year) < DaysBeforeYear(d.year) + DayOfYear(d)
    ensures DayOfYear(d) <= DaysInYear(d.year)
    ensures 1 <= DaysBeforeYear(d.year) + DayOfYear(d) <= MaxOrdinal
  {
    MonthFitsInYear(d.year, d.month);
    DaysBeforeYearMonotone(1, d.year);
    DaysBeforeYearStep(d.year);
    DaysBeforeYearMonotone(d.year + 1, MaxYear + 1);
    assert DaysBeforeYear(MaxYear + 1) == MaxOrdinal;
  }

  /** Earlier months end before later months begin. */
  lemma MonthsInOrder(year: int, m1: int, m2: int)
    requires 1 <= m1 < m2 <= 12
    ensures DaysBeforeMonth(year, m1) + DaysInMonth(year, m1) <= DaysBeforeMonth(year, m2)
  {
  }

  /** Valid dates have equal ordinals exactly when they are the same date. */
  lemma OrdinalInjective(a: Date, b: Date)
    requires ValidDate(a) && ValidDate(b)
    ensures Ordinal(a) == Ordinal(b) <==> a == b
  {
    if Ordinal(a) == Ordinal(b) {
      if a.year < b.year {
        DaysBeforeYearStep(a.year);
        DaysBeforeYearMonotone(a.year + 1, b.year);
        assert false;
      } else if b.year < a.year {
        DaysBeforeYearStep(b.year);
        DaysBeforeYearMonotone(b.year + 1, a.year);
        assert false;
      } else if a.month < b.month {
        MonthsInOrder(a.year, a.month, b.month);
        assert false;
      } else if b.month < a.month {
        MonthsInOrder(a.year, b.month, a.month);
        assert false;
      }
    }
  }

  /** A month begins where the one before it ends. */
  lemma MonthStep(year: int, month: int)
    requires 1 <= month < 12
    ensures DaysBeforeMonth(year, month + 1) == DaysBeforeMonth(year, month) + DaysInMonth(year, month)
  {
  }

  /** December 31 is the last day of its year. */
  lemma LastDayOfYear(year: int)
    ensures DaysBeforeMonth(year, 12) + DaysInMonth(year, 12) == DaysInYear(year)
  {
  }

  /** 0001-01-01 is day 1. */
  lemma FirstOrdinal()
    ensures Ordinal(Date(MinYear, 1, 1)) == 1
  {
  }

  /** 9999-12-31 is the last representable day. */
  lemma LastOrdinal()
    ensures Ordinal(Date(MaxYear, 12, 31)) == MaxOrdinal
  {
    DaysBeforeLastYear();
  }

  lemma DaysBeforeLastYear()
    ensures DaysBeforeYear(MinYear) == 0
    ensures DaysBeforeYear(MaxYear) == MaxOrdinal - 365
  {
    var y := MaxYear - 1;
    assert y / 4 == 2499 && y / 100 == 99 && y / 400 == 24;
  }

  /** Ordinals of two days of the same month differ by their day numbers. */
  lemma OrdinalSameMonth(a: Date, b: Date)
    requires ValidDate(a) && ValidDate(b) && a.year == b.year && a.month == b.month
    ensures Ordinal(b) - Ordinal(a) == b.day - a.day
  {
  }

  /** Ordinals of the last day of a month and the first of the next. */
  lemma OrdinalMonthCarry(a: Date, b: Date)
    requires ValidDate(a) && ValidDate(b) && a.year == b.year && a.month < 12 && b.month == a.month + 1
    requires a.day == DaysInMonth(a.year, a.month) && b.day == 1
    ensures Ordinal(b) == Ordinal(a) + 1
  {
    MonthStep(a.year, a.month);
  }

  /** Ordinals of December 31 and the following January 1. */
  lemma OrdinalYearCarry(a: Date, b: Date)
    requires ValidDate(a) && ValidDate(b) && b.year == a.year + 1
    requires a.month == 12 && a.day == 31 && b.month == 1 && b.day == 1
    ensures Ordinal(b) == Ordinal(a) + 1
  {
    DaysBeforeYearStep(a.year);
    LastDayOfYear(a.year);
  }

  /** The day after `d`, carrying into the month and the year. */
  function NextDate(d: Date): (r: Date)
    requires ValidDate(d) && d != Date(MaxYear, 12, 31)
    ensures ValidDate(r)
    ensures Ordinal(r) == Ordinal(d) + 1
  {
    if d.day < DaysInMonth(d.year, d.month) then
      var r := Date(d.year, d.month, d.day + 1);
      OrdinalSameMonth(d, r);
      r
    else if d.month < 12 then
      var r := Date(d.year, d.month + 1, 1);
      OrdinalMonthCarry(d, r);
      r
    else
      var r := Date(d.year + 1, 1, 1);
      OrdinalYearCarry(d, r);
      r
  }

  /** The day before `d`, borrowing from the month and the year. */
  function PrevDate(d: Date): (r: Date)
    requires ValidDate(d) && d != Date(MinYear, 1, 1)
    ensures ValidDate(r)
    ensures Ordinal(r) == Ordinal(d) - 1
  {
    if d.day > 1 then
      var r := Date(d.year, d.month, d.day - 1);
      OrdinalSameMonth(r, d);
      r
    else if d.month > 1 then
      var r := Date(d.year, d.month - 1, DaysInMonth(d.year, d.month - 1));
      OrdinalMonthCarry(r, d);
      r
    else
      var r := Date(d.year - 1, 12, 31);
      OrdinalYearCarry(r, d);
      r
  }

  /** What a Python `datetime` object can hold. */
  predicate Valid(dt: DateTime) {
    && ValidDate(dt.DateOf())
    && 0 <= dt.hour < 24
    && 0 <= dt.minute < 60
    && 0 <= dt.second < 60
    && (dt.utcOffset.Some? ==> -SecondsPerDay < dt.utcOffset.value < SecondsPerDay)
  }

  predicate IsAware(dt: DateTime) {
    Valid(dt) && dt.utcOffset.Some?
  }

  predicate IsUtc(dt: DateTime) {
    Valid(dt) && dt.utcOffset == Some(0)
  }

  function SecondOfDay(dt: DateTime): int {
    dt.hour * 3600 + dt.minute * 60 + dt.second
  }

  /** The instant an aware datetime denotes: seconds since 0001-01-01T00:00:00Z. */
  function Instant(dt: DateTime): int
    requires IsAware(dt)
  {
    (Ordinal(dt.DateOf()) - 1) * SecondsPerDay + SecondOfDay(dt) - dt.utcOffset.value
  }

  lemma UtcInstantInRange(u: DateTime)
    requires IsUtc(u)
    ensures 0 <= Instant(u) <= MaxInstant
  {
  }

  /** An instant has at most one UTC representation. */
  lemma UtcUnique(a: DateTime, b: DateTime)
    requires IsUtc(a) && IsUtc(b)
    requires Instant(a) == Instant(b)
    ensures a == b
  {
    var sa, sb := SecondOfDay(a), SecondOfDay(b);
    DaySecondUnique(Ordinal(a.DateOf()) - 1, sa, Ordinal(b.DateOf()) - 1, sb);
    OrdinalInjective(a.DateOf(), b.DateOf());
    AtSecondOfDay(a);
    AtSecondOfDay(b);
  }

  /** A count of seconds splits uniquely into whole days and a second of the day. */
  lemma DaySecondUnique(d1: int, s1: int, d2: int, s2: int)
    requires 0 <= s1 < SecondsPerDay && 0 <= s2 < SecondsPerDay
    requires d1 * SecondsPerDay + s1 == d2 * SecondsPerDay + s2
    ensures d1 == d2 && s1 == s2
  {
  }

  /** The UTC datetime at second `s` of day `d`. */
  function AtSecond(d: Date, s: int): (dt: DateTime)
    requires ValidDate(d) && 0 <= s < SecondsPerDay
    ensures IsUtc(dt)
    ensures dt.DateOf() == d && SecondOfDay(dt) == s
  {
    DateTime(d.year, d.month, d.day, s / 3600, s % 3600 / 60, s % 60, Some(0))
  }

  /** `convert_to_UTC`: `dt.astimezone(pytz.utc)` on an aware datetime. */
  function ConvertToUtc(dt: DateTime): (r: Result<DateTime, TimeError>)
    requires IsAware(dt)
    ensures r.Success? ==> IsUtc(r.value) && Instant(r.value) == Instant(dt)
    ensures r.Failure? <==> Instant(dt) < 0 || MaxInstant < Instant(dt)
    ensures IsUtc(dt) ==> r == Success(dt)
  {
    ShiftToUtcInstant(dt);
    ShiftToUtcOverflow(dt);
    ShiftToUtcOfUtc(dt);
    ShiftToUtc(dt)
  }

  /** `astimezone(UTC)` step by step: subtract the offset from the second of
      the day, then borrow or carry a day, or overflow at either end of the
      calendar. */
  function ShiftToUtc(dt: DateTime): Result<DateTime, TimeError>
    requires IsAware(dt)
  {
    var local := SecondOfDay(dt) - dt.utcOffset.value;
    var date := dt.DateOf();
    InstantSplit(dt);
    if local < 0 && date == Date(MinYear, 1, 1) then Failure(OverflowError)
    else if local >= SecondsPerDay && date == Date(MaxYear, 12, 31) then Failure(OverflowError)
    else Success(ShiftDay(date, local))
  }

  lemma ShiftToUtcInstant(dt: DateTime)
    requires IsAware(dt)
    ensures ShiftToUtc(dt).Success? ==> IsUtc(ShiftToUtc(dt).value) && Instant(ShiftToUtc(dt).value) == Instant(dt)
  {
    InstantSplit(dt);
  }

  lemma ShiftToUtcOverflow(dt: DateTime)
    requires IsAware(dt)
    ensures ShiftToUtc(dt).Failure? <==> Instant(dt) < 0 || MaxInstant < Instant(dt)
  {
    InstantSplit(dt);
    var local := SecondOfDay(dt) - dt.utcOffset.value;
    var date := dt.DateOf();
    if local < 0 && date == Date(MinYear, 1, 1) {
      FirstOrdinal();
    } else if local >= SecondsPerDay && date == Date(MaxYear, 12, 31) {
      LastOrdinal();
    } else {
      UtcInstantInRange(ShiftDay(date, local));
    }
  }

  lemma ShiftToUtcOfUtc(dt: DateTime)
    requires IsAware(dt)
    ensures IsUtc(dt) ==> ShiftToUtc(dt) == Success(dt)
  {
    if IsUtc(dt) {
      InstantSplit(dt);
      AtSecondOfDay(dt);
    }
  }

  /** The instant of an aware value: its day's first second plus the local
      second of the day less the offset. */
  lemma InstantSplit(dt: DateTime)
    requires IsAware(dt)
    ensures Instant(dt) == (Ordinal(dt.DateOf()) - 1) * SecondsPerDay + (SecondOfDay(dt) - dt.utcOffset.value)
    ensures -SecondsPerDay < SecondOfDay(dt) - dt.utcOffset.value < 2 * SecondsPerDay
  {
  }

  /** The UTC datetime `local` seconds after the start of day `d`, where
      `local` may fall up to a day before or after it: the day is borrowed
      from or carried into the neighbouring date. */
  function ShiftDay(d: Date, local: int): (u: DateTime)
    requires ValidDate(d) && -SecondsPerDay < local < 2 * SecondsPerDay
    requires local < 0 ==> d != Date(MinYear, 1, 1)
    requires local >= SecondsPerDay ==> d != Date(MaxYear, 12, 31)
    ensures IsUtc(u) && Instant(u) == (Ordinal(d) - 1) * SecondsPerDay + local
    ensures 0 <= local < SecondsPerDay ==> u == AtSecond(d, local)
  {
    if local < 0 then
      InstantAtSecond(PrevDate(d), local + SecondsPerDay);
      AtSecond(PrevDate(d), local + SecondsPerDay)
    else if local >= SecondsPerDay then
      InstantAtSecond(NextDate(d), local - SecondsPerDay);
      AtSecond(NextDate(d), local - SecondsPerDay)
    else
      InstantAtSecond(d, local);
      AtSecond(d, local)
  }

  /** Splitting a second of the day back into fields recovers the fields. */
  lemma AtSecondOfDay(dt: DateTime)
    requires Valid(dt)
    ensures AtSecond(dt.DateOf(), SecondOfDay(dt)) == dt.(utcOffset := Some(0))
  {
    var s := SecondOfDay(dt);
    assert s / 3600 == dt.hour;
    assert s % 3600 == dt.minute * 60 + dt.second;
  }

  lemma InstantAtSecond(d: Date, s: int)
    requires ValidDate(d) && 0 <= s < SecondsPerDay
    ensures Instant(AtSecond(d, s)) == (Ordinal(d) - 1) * SecondsPerDay + s
  {
  }

  /** The conversion returns exactly the UTC datetime denoting the same instant. */
  lemma ConvertToUtcDenotesSameInstant(dt: DateTime, u: DateTime)
    requires IsAware(dt) && IsUtc(u)
    ensures ConvertToUtc(dt) == Success(u) <==> Instant(u) == Instant(dt)
  {
    if Instant(u) == Instant(dt) {
      UtcInstantInRange(u);
      UtcUnique(ConvertToUtc(dt).value, u);
    }
  }

  lemma ConvertToUtcIdempotent(dt: DateTime)
    requires IsAware(dt) && ConvertToUtc(dt).Success?
    ensures ConvertToUtc(ConvertToUtc(dt).value) == ConvertToUtc(dt)
  {
  }

  /** `dt_list_to_UTC_list`: converts element by element, in order; the first
      element that overflows aborts the whole conversion. */
  function DtListToUtcList(dts: seq<DateTime>): (r: Result<seq<DateTime>, TimeError>)
    requires forall i :: 0 <= i < |dts| ==> IsAware(dts[i])
    ensures r.Success? ==> |r.value| == |dts|
    ensures r.Success? ==> forall i :: 0 <= i < |dts| ==> ConvertToUtc(dts[i]) == Success(r.value[i])
    ensures r.Failure? <==> exists i :: 0 <= i < |dts| && ConvertToUtc(dts[i]).Failure?
  {
    if |dts| == 0 then Success([])
    else
      var head :- ConvertToUtc(dts[0]);
      var tail :- DtListToUtcList(dts[1..]);
      assert forall i :: 1 <= i < |dts| ==> dts[i] == dts[1..][i - 1];
      Success([head] + tail)
  }
}

=== FILE: datetime_format.dfy ===
/** The string side of app/utils/utils.py: `datetime.strptime` with the
    formats `%Y-%m-%dT%H:%M:%S%z` (aware) and `%Y-%m-%dT%H:%M:%S` (naive), and
    the three helpers built on it.

    The grammar is the strict ISO 8601 / RFC 3339 (section 5.6) profile
    without fractional seconds: a four-digit year, two-digit month, day, hour,
    minute and second, and an offset written `Z`, `+HHMM` or `+HH:MM` (or with
    `-`).  A string is accepted exactly when it renders a real datetime: the
    date exists, the second is 0..59, offset minutes are 0..59 and the offset
    is strictly inside one day. */
module DateTimeFormat {
  import opened Wrappers
  import opened CivilTime

  predicate IsDigit(c: char) {
    '0' <= c <= '9'
  }

  predicate IsSign(c: char) {
    c == '+' || c == '-'
  }

  function DigitValue(c: char): int
    requires IsDigit(c)
  {
    c as int - '0' as int
  }

  function DigitChar(n: int): char
    requires 0 <= n < 10
  {
    (n + '0' as int) as char
  }

  function TwoDigits(s: string): (r: Option<int>)
    requires |s| == 2
    ensures r.Some? ==> 0 <= r.value < 100
  {
    if IsDigit(s[0]) && IsDigit(s[1]) then
      Some(10 * DigitValue(s[0]) + DigitValue(s[1]))
    else
      None
  }

  function FourDigits(s: string): (r: Option<int>)
    requires |s| == 4
    ensures r.Some? ==> 0 <= r.value < 10000
  {
    var high :- TwoDigits(s[0..2]);
    var low :- TwoDigits(s[2..4]);
    Some(100 * high + low)
  }

  function Pad2(n: int): string
    requires 0 <= n < 100
  {
    [DigitChar(n / 10), DigitChar(n % 10)]
  }

  function Pad4(n: int): string
    requires 0 <= n < 10000
  {
    Pad2(n / 100) + Pad2(n % 100)
  }

  lemma TwoDigitsRoundTrip(n: int, s: string)
    requires |s| == 2
    ensures 0 <= n < 100 ==> TwoDigits(Pad2(n)) == Some(n)
    ensures TwoDigits(s) == Some(n) ==> Pad2(n) == s
  {
  }

  lemma FourDigitsRoundTrip(n: int, s: string)
    requires |s| == 4
    ensures 0 <= n < 10000 ==> FourDigits(Pad4(n)) == Some(n)
    ensures FourDigits(s) == Some(n) ==> Pad4(n) == s
  {
    if 0 <= n < 10000 {
      var p := Pad4(n);
      assert p[0..2] == Pad2(n / 100) && p[2..4] == Pad2(n % 100);
      TwoDigitsRoundTrip(n / 100, p[0..2]);
      TwoDigitsRoundTrip(n % 100, p[2..4]);
    }
    if FourDigits(s) == Some(n) {
      var high, low := TwoDigits(s[0..2]).value, TwoDigits(s[2..4]).value;
      assert n / 100 == high && n % 100 == low;
      TwoDigitsRoundTrip(high, s[0..2]);
      TwoDigitsRoundTrip(low, s[2..4]);
      assert s == s[0..2] + s[2..4];
    }
  }

  /** An offset magnitude splits into whole hours and minutes, and back. */
  lemma OffsetSplit(magnitude: int, hours: int, minutes: int)
    requires 0 <= magnitude < SecondsPerDay && magnitude % 60 == 0
    requires 0 <= hours && 0 <= minutes < 60
    ensures magnitude / 3600 < 24 && magnitude % 3600 / 60 < 60
    ensures magnitude == (magnitude / 3600) * 3600 + (magnitude % 3600 / 60) * 60
    ensures magnitude == hours * 3600 + minutes * 60 <==>
              hours == magnitude / 3600 && minutes == magnitude % 3600 / 60
  {
  }

  /** Length of the `%Y-%m-%dT%H:%M:%S` part. */
  const FieldsLength: int := 19

  /** The date and time fields of `s`, or None if they do not spell a real datetime. */
  function ParseFields(s: string): (r: Option<DateTime>)
    requires |s| == FieldsLength
    ensures r.Some? ==> Valid(r.value) && r.value.utcOffset.None?
  {
    if s[4] != '-' || s[7] != '-' || s[10] != 'T' || s[13] != ':' || s[16] != ':' then
      None
    else
      var year :- FourDigits(s[0..4]);
      var month :- TwoDigits(s[5..7]);
      var day :- TwoDigits(s[8..10]);
      var hour :- TwoDigits(s[11..13]);
      var minute :- TwoDigits(s[14..16]);
      var second :- TwoDigits(s[17..19]);
      var dt := DateTime(year, month, day, hour, minute, second, None);
      if Valid(dt) then Some(dt) else None
  }

  /** The offset in seconds of a `%z` field whose minutes and hours have been read.
      Minutes above 59 do not match `%z`; `timezone()` rejects a whole day or more. */
  function OffsetSeconds(negative: bool, hours: int, minutes: int): (r: Option<int>)
    requires 0 <= hours < 100 && 0 <= minutes < 100
    ensures r.Some? <==> minutes < 60 && hours < 24
  {
    if minutes >= 60 then None
    else
      var magnitude := hours * 3600 + minutes * 60;
      if magnitude >= SecondsPerDay then None
      else Some(if negative then -magnitude else magnitude)
  }

  function ParseOffset(t: string): (r: Option<int>)
    ensures r.Some? ==> -SecondsPerDay < r.value < SecondsPerDay && r.value % 60 == 0
  {
    if t == "Z" then
      Some(0)
    else if |t| == 5 && IsSign(t[0]) then
      var hours :- TwoDigits(t[1..3]);
      var minutes :- TwoDigits(t[3..5]);
      OffsetSeconds(t[0] == '-', hours, minutes)
    else if |t| == 6 && IsSign(t[0]) && t[3] == ':' then
      var hours :- TwoDigits(t[1..3]);
      var minutes :- TwoDigits(t[4..6]);
      OffsetSeconds(t[0] == '-', hours, minutes)
    else
      None
  }

  /** `datetime.strptime(s, '%Y-%m-%dT%H:%M:%S%z')`, None where it raises `ValueError`. */
  function ParseAware(s: string): (r: Option<DateTime>)
    ensures r.Some? ==> IsAware(r.value)
  {
    if |s| < FieldsLength then None
    else
      var fields :- ParseFields(s[..FieldsLength]);
      var offset :- ParseOffset(s[FieldsLength..]);
      Some(fields.(utcOffset := Some(offset)))
  }

  /** `datetime.strptime(s, '%Y-%m-%dT%H:%M:%S')`, None where it raises `ValueError`. */
  function ParseNaive(s: string): (r: Option<DateTime>)
    ensures r.Some? ==> Valid(r.value) && r.value.utcOffset.None?
    ensures |s| != FieldsLength ==> r.None?
  {
    if |s| != FieldsLength then None else ParseFields(s)
  }

  // ----- Rendering: the strings the grammar accepts -----

  /** How an offset is written.  Zero may be written `Z`, `+00..` or `-00..`. */
  datatype OffsetStyle = Zulu | Basic(negative: bool) | Extended(negative: bool)

  predicate StyleFits(offset: int, style: OffsetStyle) {
    && -SecondsPerDay < offset < SecondsPerDay
    && offset % 60 == 0
    && match style
       case Zulu => offset == 0
       case Basic(negative) => if negative then offset <= 0 else offset >= 0
       case Extended(negative) => if negative then offset <= 0 else offset >= 0
  }

  function RenderFields(dt: DateTime): (s: string)
    requires Valid(dt)
    ensures |s| == FieldsLength
  {
    Pad4(dt.year) + "-" + Pad2(dt.month) + "-" + Pad2(dt.day) + "T"
      + Pad2(dt.hour) + ":" + Pad2(dt.minute) + ":" + Pad2(dt.second)
  }

  function RenderOffset(offset: int, style: OffsetStyle): string
    requires StyleFits(offset, style)
  {
    var magnitude := if offset < 0 then -offset else offset;
    var hours := Pad2(magnitude / 3600);
    var minutes := Pad2(magnitude % 3600 / 60);
    match style
    case Zulu => "Z"
    case Basic(negative) => [if negative then '-' else '+'] + hours + minutes
    case Extended(negative) => [if negative then '-' else '+'] + hours + ":" + minutes
  }

  function RenderAware(dt: DateTime, style: OffsetStyle): string
    requires IsAware(dt) && StyleFits(dt.utcOffset.value, style)
  {
    RenderFields(dt) + RenderOffset(dt.utcOffset.value, style)
  }

  /** The offset style a string accepted by `ParseAware` uses. */
  function StyleOf(s: string): OffsetStyle
    requires |s| > FieldsLength
  {
    if |s| == FieldsLength + 1 then Zulu
    else if |s| == FieldsLength + 5 then Basic(s[FieldsLength] == '-')
    else Extended(s[FieldsLength] == '-')
  }

  // ----- Grammar lemmas -----

  lemma ParseRenderFields(dt: DateTime)
    requires Valid(dt)
    ensures ParseFields(RenderFields(dt)) == Some(dt.(utcOffset := None))
  {
    var s := RenderFields(dt);
    TwoDigitsRoundTrip(dt.month, s[5..7]);
    TwoDigitsRoundTrip(dt.day, s[8..10]);
    TwoDigitsRoundTrip(dt.hour, s[11..13]);
    TwoDigitsRoundTrip(dt.minute, s[14..16]);
    TwoDigitsRoundTrip(dt.second, s[17..19]);
    FourDigitsRoundTrip(dt.year, s[0..4]);
    assert s[0..4] == Pad4(dt.year);
    assert s[5..7] == Pad2(dt.month);
    assert s[8..10] == Pad2(dt.day);
    assert s[11..13] == Pad2(dt.hour);
    assert s[14..16] == Pad2(dt.minute);
    assert s[17..19] == Pad2(dt.second);
  }

  lemma RenderParseFields(s: string)
    requires |s| == FieldsLength && ParseFields(s).Some?
    ensures RenderFields(ParseFields(s).value) == s
  {
    var dt := ParseFields(s).value;
    TwoDigitsRoundTrip(dt.month, s[5..7]);
    TwoDigitsRoundTrip(dt.day, s[8..10]);
    TwoDigitsRoundTrip(dt.hour, s[11..13]);
    TwoDigitsRoundTrip(dt.minute, s[14..16]);
    TwoDigitsRoundTrip(dt.second, s[17..19]);
    FourDigitsRoundTrip(dt.year, s[0..4]);
    var r := RenderFields(dt);
    assert r[0..4] == s[0..4];
    assert r[5..7] == s[5..7];
    assert r[8..10] == s[8..10];
    assert r[11..13] == s[11..13];
    assert r[14..16] == s[14..16];
    assert r[17..19] == s[17..19];
    assert forall i :: 0 <= i < FieldsLength ==> r[i] == s[i];
  }

  lemma ParseRenderOffset(offset: int, style: OffsetStyle)
    requires StyleFits(offset, style)
    ensures ParseOffset(RenderOffset(offset, style)) == Some(offset)
  {
    var magnitude := if offset < 0 then -offset else offset;
    var hours, minutes := magnitude / 3600, magnitude % 3600 / 60;
    OffsetSplit(magnitude, hours, minutes);
    var t := RenderOffset(offset, style);
    match style
    case Zulu =>
    case Basic(negative) =>
      assert t[1..3] == Pad2(hours) && t[3..5] == Pad2(minutes);
      TwoDigitsRoundTrip(hours, t[1..3]);
      TwoDigitsRoundTrip(minutes, t[3..5]);
      assert ParseOffset(t) == OffsetSeconds(negative, hours, minutes);
    case Extended(negative) =>
      assert t[1..3] == Pad2(hours) && t[4..6] == Pad2(minutes);
      TwoDigitsRoundTrip(hours, t[1..3]);
      TwoDigitsRoundTrip(minutes, t[4..6]);
      assert ParseOffset(t) == OffsetSeconds(negative, hours, minutes);
  }

  /** The style a parsed (non-`Z`) offset field was written in. */
  function OffsetStyleOf(t: string): OffsetStyle
    requires |t| > 0
  {
    if |t| == 5 then Basic(t[0] == '-') else Extended(t[0] == '-')
  }

  lemma RenderParseOffset(t: string)
    requires ParseOffset(t).Some? && t != "Z"
    ensures StyleFits(ParseOffset(t).value, OffsetStyleOf(t))
    ensures RenderOffset(ParseOffset(t).value, OffsetStyleOf(t)) == t
  {
    if |t| == 5 {
      RenderParseBasicOffset(t);
    } else {
      RenderParseExtendedOffset(t);
    }
  }

  lemma RenderParseBasicOffset(t: string)
    requires |t| == 5 && ParseOffset(t).Some?
    ensures StyleFits(ParseOffset(t).value, Basic(t[0] == '-'))
    ensures RenderOffset(ParseOffset(t).value, Basic(t[0] == '-')) == t
  {
    assert t != "Z" && IsSign(t[0]);
    var hours, minutes := TwoDigits(t[1..3]).value, TwoDigits(t[3..5]).value;
    assert ParseOffset(t) == OffsetSeconds(t[0] == '-', hours, minutes);
    TwoDigitsRoundTrip(hours, t[1..3]);
    TwoDigitsRoundTrip(minutes, t[3..5]);
    RenderOffsetOf(t[0] == '-', hours, minutes, ParseOffset(t).value);
    assert [if t[0] == '-' then '-' else '+'] == [t[0]];
    assert t == [t[0]] + t[1..3] + t[3..5];
  }

  lemma RenderParseExtendedOffset(t: string)
    requires |t| == 6 && ParseOffset(t).Some?
    ensures StyleFits(ParseOffset(t).value, Extended(t[0] == '-'))
    ensures RenderOffset(ParseOffset(t).value, Extended(t[0] == '-')) == t
  {
    assert t != "Z" && IsSign(t[0]) && t[3] == ':';
    var hours, minutes := TwoDigits(t[1..3]).value, TwoDigits(t[4..6]).value;
    assert ParseOffset(t) == OffsetSeconds(t[0] == '-', hours, minutes);
    TwoDigitsRoundTrip(hours, t[1..3]);
    TwoDigitsRoundTrip(minutes, t[4..6]);
    RenderOffsetOf(t[0] == '-', hours, minutes, ParseOffset(t).value);
    assert [if t[0] == '-' then '-' else '+'] == [t[0]];
    assert t == [t[0]] + t[1..3] + ":" + t[4..6];
  }

  lemma RenderOffsetOf(negative: bool, hours: int, minutes: int, offset: int)
    requires 0 <= hours < 100 && 0 <= minutes < 100
    requires OffsetSeconds(negative, hours, minutes) == Some(offset)
    ensures StyleFits(offset, Basic(negative)) && StyleFits(offset, Extended(negative))
    ensures RenderOffset(offset, Basic(negative)) == [if negative then '-' else '+'] + Pad2(hours) + Pad2(minutes)
    ensures RenderOffset(offset, Extended(negative)) == [if negative then '-' else '+'] + Pad2(hours) + ":" + Pad2(minutes)
  {
    var magnitude := hours * 3600 + minutes * 60;
    assert (if offset < 0 then -offset else offset) == magnitude;
    OffsetSplit(magnitude, hours, minutes);
  }

  /** Every aware datetime with a minute-granular offset is accepted back from
      each of its renderings: parsing loses nothing. */
  lemma ParseAwareRenderAware(dt: DateTime, style: OffsetStyle)
    requires IsAware(dt) && StyleFits(dt.utcOffset.value, style)
    ensures ParseAware(RenderAware(dt, style)) == Some(dt)
  {
    var s := RenderAware(dt, style);
    assert s[..FieldsLength] == RenderFields(dt);
    assert s[FieldsLength..] == RenderOffset(dt.utcOffset.value, style);
    ParseRenderFields(dt);
    ParseRenderOffset(dt.utcOffset.value, style);
  }

  /** Every accepted string is a rendering of what it parses to: the parser
      keeps the wall-clock fields and the offset exactly as written. */
  lemma RenderAwareParseAware(s: string)
    requires ParseAware(s).Some?
    ensures |s| > FieldsLength
    ensures StyleFits(ParseAware(s).value.utcOffset.value, StyleOf(s))
    ensures RenderAware(ParseAware(s).value, StyleOf(s)) == s
  {
    var dt := ParseAware(s).value;
    var head, tail := s[..FieldsLength], s[FieldsLength..];
    RenderParseFields(head);
    if tail != "Z" {
      RenderParseOffset(tail);
      assert OffsetStyleOf(tail) == StyleOf(s);
    }
    assert s == head + tail;
  }

  lemma ParseNaiveRenderFields(dt: DateTime)
    requires Valid(dt) && dt.utcOffset.None?
    ensures ParseNaive(RenderFields(dt)) == Some(dt)
  {
    ParseRenderFields(dt);
  }

  lemma RenderFieldsParseNaive(s: string)
    requires ParseNaive(s).Some?
    ensures RenderFields(ParseNaive(s).value) == s
  {
    RenderParseFields(s);
  }

  // ----- The helpers of app/utils/utils.py -----

  /** `datetime_string_to_datetime`: the parsed value, offset kept as written. */
  function DatetimeStringToDatetime(s: string): (r: Option<DateTime>)
    ensures r.Some? ==> IsAware(r.value)
  {
    ParseAware(s)
  }

  /** `datetime_string_to_naive`: the parsed value of an offset-less string. */
  function DatetimeStringToNaive(s: string): (r: Option<DateTime>)
    ensures r.Some? ==> Valid(r.value) && r.value.utcOffset.None?
    ensures r.Some? ==> ParseAware(s).None?
  {
    ParseNaive(s)
  }

  /** `datetime_string_to_utc`: None where the string does not parse; the UTC
      datetime denoting the same instant otherwise, unless that instant lies
      outside the representable years, where `astimezone` raises. */
  function DatetimeStringToUtc(s: string): (r: Result<Option<DateTime>, TimeError>)
    ensures r == Success(None) <==> ParseAware(s).None?
    ensures r.Success? && r.value.Some? ==>
      && ParseAware(s).Some?
      && IsUtc(r.value.value)
      && Instant(r.value.value) == Instant(ParseAware(s).value)
    ensures r.Failure? ==>
      && ParseAware(s).Some?
      && (Instant(ParseAware(s).value) < 0 || MaxInstant < Instant(ParseAware(s).value))
  {
    match ParseAware(s)
    case None => Success(None)
    case Some(dt) =>
      var utc :- ConvertToUtc(dt);
      Success(Some(utc))
  }

  /** Parsing to UTC is parsing with the offset kept, then `convert_to_UTC`. */
  lemma UtcIsConvertedDatetime(s: string)
    ensures DatetimeStringToDatetime(s).None? <==> DatetimeStringToUtc(s) == Success(None)
    ensures DatetimeStringToDatetime(s).Some? ==>
      match ConvertToUtc(DatetimeStringToDatetime(s).value)
      case Success(u) => DatetimeStringToUtc(s) == Success(Some(u))
      case Failure(e) => DatetimeStringToUtc(s) == Failure(e)
  {
  }

  /** The two-digit field at position `i` of `s`, read character by character. */
  lemma TwoDigitsAt(s: string, i: int)
    requires 0 <= i && i + 2 <= |s|
    ensures TwoDigits(s[i..i + 2]) ==
      if IsDigit(s[i]) && IsDigit(s[i + 1]) then Some(10 * DigitValue(s[i]) + DigitValue(s[i + 1])) else None
  {
    assert s[i..i + 2][0] == s[i] && s[i..i + 2][1] == s[i + 1];
  }

  /** The four-digit field at the start of `s`, read character by character. */
  lemma FourDigitsAtStart(s: string)
    requires 4 <= |s|
    ensures IsDigit(s[0]) && IsDigit(s[1]) && IsDigit(s[2]) && IsDigit(s[3]) ==>
      FourDigits(s[0..4]) ==
        Some(1000 * DigitValue(s[0]) + 100 * DigitValue(s[1]) + 10 * DigitValue(s[2]) + DigitValue(s[3]))
  {
    var y := s[0..4];
    TwoDigitsAt(y, 0);
    TwoDigitsAt(y, 2);
  }

  /** Day 30 of February matches the grammar's shape but is not a date, so
      `datetime_string_to_utc` answers None. */
  lemma FebruaryThirtiethRejected()
    ensures DatetimeStringToUtc("2021-02-30T10:00:00+08:00") == Success(None)
  {
    var s := "2021-02-30T10:00:00+08:00";
    assert s[..FieldsLength] == "2021-02-30T10:00:00";
    FieldsFebruaryThirtieth();
  }

  lemma FieldsFebruaryThirtieth()
    ensures ParseFields("2021-02-30T10:00:00") == None
  {
    var f := "2021-02-30T10:00:00";
    FourDigitsAtStart(f);
    assert FourDigits(f[0..4]) == Some(2021);
    TwoDigitsAt(f, 5);
    assert TwoDigits(f[5..7]) == Some(2);
    TwoDigitsAt(f, 8);
    assert TwoDigits(f[8..10]) == Some(30);
    TwoDigitsAt(f, 11);
    assert TwoDigits(f[11..13]) == Some(10);
    TwoDigitsAt(f, 14);
    assert TwoDigits(f[14..16]) == Some(0);
    TwoDigitsAt(f, 17);
    assert TwoDigits(f[17..19]) == Some(0);
    assert !Valid(DateTime(2021, 2, 30, 10, 0, 0, None));
  }

  /** One in the morning of 1 March at +08:00 is the previous evening in UTC:
      the conversion carries back across the end of February. */
  lemma ConversionCarriesAcrossMonth()
    ensures DatetimeStringToUtc("2021-03-01T01:30:00+08:00") == Success(Some(DateTime(2021, 2, 28, 17, 30, 0, Some(0))))
  {
    var dt := DateTime(2021, 3, 1, 1, 30, 0, Some(28800));
    ParseFirstOfMarch();
    ConvertFirstOfMarch();
    assert ParseAware("2021-03-01T01:30:00+08:00") == Some(dt);
  }

  lemma ParseFirstOfMarch()
    ensures ParseAware("2021-03-01T01:30:00+08:00") == Some(DateTime(2021, 3, 1, 1, 30, 0, Some(28800)))
  {
    var s := "2021-03-01T01:30:00+08:00";
    assert s[..FieldsLength] == "2021-03-01T01:30:00" && s[FieldsLength..] == "+08:00";
    FieldsFirstOfMarch();
    OffsetPlusEight();
  }

  lemma FieldsFirstOfMarch()
    ensures ParseFields("2021-03-01T01:30:00") == Some(DateTime(2021, 3, 1, 1, 30, 0, None))
  {
    var f := "2021-03-01T01:30:00";
    FourDigitsAtStart(f);
    assert FourDigits(f[0..4]) == Some(2021);
    TwoDigitsAt(f, 5);
    assert TwoDigits(f[5..7]) == Some(3);
    TwoDigitsAt(f, 8);
    assert TwoDigits(f[8..10]) == Some(1);
    TwoDigitsAt(f, 11);
    assert TwoDigits(f[11..13]) == Some(1);
    TwoDigitsAt(f, 14);
    assert TwoDigits(f[14..16]) == Some(30);
    TwoDigitsAt(f, 17);
    assert TwoDigits(f[17..19]) == Some(0);
    assert Valid(DateTime(2021, 3, 1, 1, 30, 0, None));
  }

  lemma OffsetPlusEight()
    ensures ParseOffset("+08:00") == Some(28800)
  {
    var t := "+08:00";
    TwoDigitsAt(t, 1);
    TwoDigitsAt(t, 4);
  }

  lemma ConvertFirstOfMarch()
    ensures ConvertToUtc(DateTime(2021, 3, 1, 1, 30, 0, Some(28800))) == Success(DateTime(2021, 2, 28, 17, 30, 0, Some(0)))
  {
    assert PrevDate(Date(2021, 3, 1)) == Date(2021, 2, 28);
    assert AtSecond(Date(2021, 2, 28), 63000) == DateTime(2021, 2, 28, 17, 30, 0, Some(0));
  }
}

=== FILE: db_utils.dfy ===
/** The `query_*` helpers of app/dbUtils/dbUtils.py.  A table is the sequence
    of its rows; `.first()` is some matching row (the scan order is not
    fixed without ORDER BY) and `.all()` keeps every matching row, each copy
    of it, in table order.  Every query except `query_student_parents`
    first drops soft-deleted rows. */
module DbUtils {
  import opened Wrappers
  import opened Models
  import Roles

  /** `.first()` over the rows satisfying `p`. */
  function First<T>(rows: seq<T>, p: T -> bool): (r: Option<T>)
    ensures r.Some? ==> r.value in rows && p(r.value)
    ensures r.None? <==> forall i :: 0 <= i < |rows| ==> !p(rows[i])
  {
    if |rows| == 0 then None
    else if p(rows[0]) then Some(rows[0])
    else
      var r := First(rows[1..], p);
      assert forall i :: 1 <= i < |rows| ==> rows[i] == rows[1..][i - 1];
      r
  }

  /** `.all()` over the rows satisfying `p`. */
  function Filter<T(!new)>(rows: seq<T>, p: T -> bool): (r: seq<T>)
    ensures |r| <= |rows|
    ensures forall x :: x in r <==> x in rows && p(x)
    ensures forall x :: multiset(r)[x] == if p(x) then multiset(rows)[x] else 0
    ensures (forall i :: 0 <= i < |rows| ==> p(rows[i])) ==> r == rows
  {
    if |rows| == 0 then []
    else
      var rest := Filter(rows[1..], p);
      assert forall x :: x in rows <==> x == rows[0] || x in rows[1..];
      assert rows == [rows[0]] + rows[1..];
      if p(rows[0]) then [rows[0]] + rest else rest
  }

  datatype QueryError =
    /** `None.validated`: no existing user to inspect. */
    AttributeError

  /** `query_existing_user` */
  function QueryExistingUser(users: seq<User>, userId: int): (r: Option<User>)
    ensures r.Some? ==> r.value in users && !r.value.deleted && r.value.id == userId
    ensures r.None? <==> forall u :: u in users ==> u.deleted || u.id != userId
  {
    First(users, (u: User) => !u.deleted && u.id == userId)
  }

  /** `query_validated_user`: the existing user if validated, None if not, and
      an `AttributeError` when there is no existing user at all. */
  function QueryValidatedUser(users: seq<User>, userId: int): (r: Result<Option<User>, QueryError>)
    ensures r.Failure? <==> forall u :: u in users ==> u.deleted || u.id != userId
    ensures r.Success? && r.value.Some? ==>
      r.value.value in users && !r.value.value.deleted && r.value.value.id == userId && r.value.value.validated
    ensures r == Success(None) ==>
      exists u :: u in users && !u.deleted && u.id == userId && !u.validated
  {
    match QueryExistingUser(users, userId)
    case None => Failure(AttributeError)
    case Some(user) => if user.validated then Success(Some(user)) else Success(None)
  }

  /** `query_unvalidated_users` */
  function QueryUnvalidatedUsers(users: seq<User>): (r: seq<User>)
    ensures forall u :: u in r <==> u in users && !u.deleted && !u.validated
  {
    Filter(users, (u: User) => !u.deleted && !u.validated)
  }

  /** `query_existing_student` */
  function QueryExistingStudent(students: seq<Student>, studentId: int): (r: Option<Student>)
    ensures r.Some? ==> r.value in students && !r.value.deleted && r.value.id == studentId
    ensures r.None? <==> forall s :: s in students ==> s.deleted || s.id != studentId
  {
    First(students, (s: Student) => !s.deleted && s.id == studentId)
  }

  /** `query_all_existing_students` */
  function QueryAllExistingStudents(students: seq<Student>): (r: seq<Student>)
    ensures forall s :: s in r <==> s in students && !s.deleted
  {
    Filter(students, (s: Student) => !s.deleted)
  }

  /** `query_existing_phone_user` */
  function QueryExistingPhoneUser(users: seq<User>, phone: string): (r: Option<User>)
    ensures r.Some? ==> r.value in users && !r.value.deleted && r.value.phone == phone
    ensures r.None? <==> forall u :: u in users ==> u.deleted || u.phone != phone
  {
    First(users, (u: User) => !u.deleted && u.phone == phone)
  }

  /** `query_existing_openid_user` */
  function QueryExistingOpenidUser(users: seq<User>, openId: string): (r: Option<User>)
    ensures r.Some? ==> r.value in users && !r.value.deleted && r.value.openId == openId
    ensures r.None? <==> forall u :: u in users ==> u.deleted || u.openId != openId
  {
    First(users, (u: User) => !u.deleted && u.openId == openId)
  }

  /** `query_existing_course` */
  function QueryExistingCourse(courses: seq<Course>, courseId: int): (r: Option<Course>)
    ensures r.Some? ==> r.value in courses && !r.value.deleted && r.value.id == courseId
    ensures r.None? <==> forall c :: c in courses ==> c.deleted || c.id != courseId
  {
    First(courses, (c: Course) => !c.deleted && c.id == courseId)
  }

  /** `query_existing_courses_all` */
  function QueryExistingCoursesAll(courses: seq<Course>): (r: seq<Course>)
    ensures forall c :: c in r <==> c in courses && !c.deleted
  {
    Filter(courses, (c: Course) => !c.deleted)
  }

  /** `query_existing_teacher`: the role must be exactly TEACHER, so principals
      and administrators are never returned. */
  function QueryExistingTeacher(users: seq<User>, teacherId: int): (r: Option<User>)
    ensures r.Some? ==> r.value in users && !r.value.deleted && r.value.id == teacherId
    ensures r.Some? ==> Roles.RoleOf(r.value.roles) == Some(Roles.Teacher)
    ensures r.None? <==>
      forall u :: u in users ==> u.deleted || u.id != teacherId || u.roles != Roles.Value(Roles.Teacher)
  {
    First(users, (u: User) => !u.deleted && u.id == teacherId && u.roles == Roles.Value(Roles.Teacher))
  }

  /** `query_course_credit` */
  function QueryCourseCredit(credits: seq<CourseCredit>, courseId: int, studentId: int): (r: Option<CourseCredit>)
    ensures r.Some? ==> r.value in credits && !r.value.deleted
    ensures r.Some? ==> r.value.courseId == courseId && r.value.studentId == studentId
    ensures r.None? <==>
      forall c :: c in credits ==> c.deleted || c.courseId != courseId || c.studentId != studentId
  {
    First(credits, (c: CourseCredit) => !c.deleted && c.courseId == courseId && c.studentId == studentId)
  }

  /** `query_parent_hood` */
  function QueryParentHood(hoods: seq<ParentHood>, parentId: int, studentId: int): (r: Option<ParentHood>)
    ensures r.Some? ==> r.value in hoods && !r.value.deleted
    ensures r.Some? ==> r.value.parentId == parentId && r.value.studentId == studentId
    ensures r.None? <==>
      forall h :: h in hoods ==> h.deleted || h.parentId != parentId || h.studentId != studentId
  {
    First(hoods, (h: ParentHood) => !h.deleted && h.parentId == parentId && h.studentId == studentId)
  }

  /** `query_existing_taking_class` */
  function QueryExistingTakingClass(takings: seq<TakingClass>, sessionId: int, studentId: int): (r: Option<TakingClass>)
    ensures r.Some? ==> r.value in takings && !r.value.deleted
    ensures r.Some? ==> r.value.sessionId == sessionId && r.value.studentId == studentId
    ensures r.None? <==>
      forall t :: t in takings ==> t.deleted || t.sessionId != sessionId || t.studentId != studentId
  {
    First(takings, (t: TakingClass) => !t.deleted && t.sessionId == sessionId && t.studentId == studentId)
  }

  /** A non-deleted teaching row links `teacherId` to session `sessionId`. */
  predicate TaughtBy(teachings: seq<Teaching>, sessionId: int, teacherId: int) {
    exists t :: t in teachings && !t.deleted && t.sessionId == sessionId && t.teacherId == teacherId
  }

  /** `query_existing_class_sessions`: the join of sessions with teachings,
      kept when both rows are live, the teacher matches and the start time
      lies in the closed window [startTime, endTime]. */
  function QueryExistingClassSessions(
    sessions: seq<ClassSession>, teachings: seq<Teaching>,
    startTime: int, endTime: int, teacherId: int): (r: seq<ClassSession>)
    ensures forall s :: s in r <==>
      && s in sessions
      && !s.deleted
      && startTime <= s.startTime <= endTime
      && TaughtBy(teachings, s.id, teacherId)
    ensures forall s :: s in r ==> multiset(r)[s] == multiset(sessions)[s]
  {
    Filter(sessions, (s: ClassSession) =>
      !s.deleted && startTime <= s.startTime <= endTime && TaughtBy(teachings, s.id, teacherId))
  }

  /** `query_student_parents`: the parenthood filter is commented out, so every
      user row comes back, deleted or not, whatever student is asked about. */
  function QueryStudentParents(users: seq<User>, studentId: int): (r: seq<User>)
    ensures |r| == |users|
    ensures forall u :: u in users ==> u in r
  {
    users
  }

  lemma StudentParentsIgnoresStudent(users: seq<User>, a: int, b: int)
    ensures QueryStudentParents(users, a) == QueryStudentParents(users, b)
  {
  }
}

=== FILE: models.dfy ===
/** The rows the core reads and writes, with the columns app/dbUtils/dbUtils.py
    and app/api/teacher/teacher.py use.  Every table carries the soft-delete
    flag `deleted`; times are instants in seconds. */
module Models {
  import opened Wrappers

  /** `roles` holds a value of `Roles`; `phone` and `openID` identify a login. */
  datatype User = User(id: int, deleted: bool, validated: bool, roles: int, phone: string, openId: string)

  datatype Student = Student(id: int, deleted: bool)

  datatype Course = Course(id: int, deleted: bool)

  /** Primary key (student_id, course_id); `credit` may go negative. */
  datatype CourseCredit = CourseCredit(studentId: int, courseId: int, deleted: bool, credit: int)

  /** Primary key (student_id, parent_id). */
  datatype ParentHood = ParentHood(parentId: int, studentId: int, deleted: bool)

  /** Primary key `id`; the attendance-call columns are written by `attendance_call`. */
  datatype ClassSession = ClassSession(
    id: int, courseId: int, deleted: bool, startTime: int,
    attendanceCall: bool, attendanceTeacherId: Option<int>, attendanceTime: Option<int>)

  /** Primary key (session_id, teacher_id). */
  datatype Teaching = Teaching(sessionId: int, teacherId: int, deleted: bool)

  /** Primary key (session_id, student_id). */
  datatype TakingClass = TakingClass(sessionId: int, studentId: int, deleted: bool, attended: bool)
}

=== FILE: roles.dfy ===
/** The `Roles` constants and the `Relationship` table of app/utils/utils.py. */
module Roles {
  import opened Wrappers

  datatype Role = Everybody | Student | Parent | Teacher | Principle | Admin

  /** The integer a role is stored as in the `roles` column. */
  function Value(role: Role): (v: int)
    ensures v == 0 <==> role == Everybody
  {
    match role
    case Everybody => 0
    case Student => 1
    case Parent => 2
    case Teacher => 4
    case Principle => 8
    case Admin => 16
  }

  /** The role an integer in the `roles` column stands for, if any. */
  function RoleOf(v: int): (r: Option<Role>)
    ensures r.Some? ==> Value(r.value) == v
  {
    if v == 0 then Some(Everybody)
    else if v == 1 then Some(Student)
    else if v == 2 then Some(Parent)
    else if v == 4 then Some(Teacher)
    else if v == 8 then Some(Principle)
    else if v == 16 then Some(Admin)
    else None
  }

  /** Position of a role in the declaration order of the class. */
  function Rank(role: Role): nat {
    match role
    case Everybody => 0
    case Student => 1
    case Parent => 2
    case Teacher => 3
    case Principle => 4
    case Admin => 5
  }

  /** Each stored value decodes to its role, and only the six values decode. */
  lemma RoleValueRoundTrip(role: Role, v: int)
    ensures RoleOf(Value(role)) == Some(role)
    ensures RoleOf(v).None? <==> v !in {0, 1, 2, 4, 8, 16}
  {
  }

  /** The values grow strictly in declaration order:
      EVERYBODY < STUDENT < PARENT < TEACHER < PRINCIPLE < ADMIN. */
  lemma ValuesFollowDeclarationOrder(a: Role, b: Role)
    ensures Rank(a) < Rank(b) <==> Value(a) < Value(b)
    ensures a != b ==> Value(a) != Value(b)
  {
  }

  /** The `Relationship` dictionary. */
  const Relationship: map<string, int> := map[
    "FATHER" := 1, "MOTHER" := 2, "GRANDPA" := 3, "GRANDMA" := 4,
    "BROTHER" := 5, "SISTER" := 6, "UNCLE" := 7, "AUNT" := 8]

  /** The relationship codes are the distinct integers 1..8. */
  lemma RelationshipCodes()
    ensures |Relationship| == 8
    ensures forall code :: code in Relationship.Values <==> 1 <= code <= 8
    ensures forall a, b :: a in Relationship && b in Relationship && a != b ==> Relationship[a] != Relationship[b]
  {
    RelationshipByPosition();
    forall code | 1 <= code <= 8
      ensures code in Relationship.Values
    {
      assert Relationship[RelationshipNames[code - 1]] == code;
    }
  }

  /** The relationship names in code order. */
  const RelationshipNames: seq<string> :=
    ["FATHER", "MOTHER", "GRANDPA", "GRANDMA", "BROTHER", "SISTER", "UNCLE", "AUNT"]

  /** Every name is listed at the position its code gives, and nothing else is a key. */
  lemma RelationshipByPosition()
    ensures |Relationship| == 8
    ensures forall i :: 0 <= i < 8 ==> RelationshipNames[i] in Relationship && Relationship[RelationshipNames[i]] == i + 1
    ensures forall a :: a in Relationship ==> a == RelationshipNames[Relationship[a] - 1]
  {
    NamesDistinct();
  }

  /** The names differ pairwise in their first or their second-to-last letter. */
  lemma NamesDistinct()
    ensures forall i, j :: 0 <= i < j < 8 ==> RelationshipNames[i] != RelationshipNames[j]
  {
    forall i, j | 0 <= i < j < 8
      ensures RelationshipNames[i] != RelationshipNames[j]
    {
      var a, b := RelationshipNames[i], RelationshipNames[j];
      assert a[0] != b[0] || a[|a| - 2] != b[|b| - 2];
    }
  }
}

=== FILE: token_store.dfy ===
/** The token revocation list of app/api/auth/auth_utils.py.  Every issued
    token is stored as a row keyed by nothing stronger than its `jti` column,
    so the table is a sequence of rows and `.one()` can find none, one or
    several.  Decoding the JWT and the clock are parameters: a token arrives
    already decoded and `now` is `datetime.utcnow()` in POSIX seconds. */
module TokenStore {
  import opened Wrappers
  import DbUtils

  /** The claims `add_token_to_db` reads from a decoded token. */
  datatype DecodedToken = DecodedToken(jti: string, tokenType: string, userId: int, exp: int)

  /** A `TokenBlacklist` row; `expires` in POSIX seconds. */
  datatype TokenRow = TokenRow(jti: string, tokenType: string, userId: int, expires: int, revoked: bool)

  type Table = seq<TokenRow>

  /** What `Query.one()` raises. */
  datatype LookupError = NoResultFound | MultipleResultsFound

  /** What `revoke_token` raises: its own error, or the lookup error it lets
      escape. */
  datatype RevokeError = TokenNotFound | Uncaught(error: LookupError)

  /** The rows with a given `jti`, in table order (`filter_by(jti=jti)`). */
  function Rows(table: Table, jti: string): (r: seq<TokenRow>)
    ensures forall row :: row in r <==> row in table && row.jti == jti
  {
    if |table| == 0 then []
    else (if table[0].jti == jti then [table[0]] else []) + Rows(table[1..], jti)
  }

  /** `TokenBlacklist.query.filter_by(jti=jti).one()` */
  function One(table: Table, jti: string): (r: Result<TokenRow, LookupError>)
    ensures r.Success? ==> r.value in table && r.value.jti == jti
    ensures r.Success? ==> forall row :: row in table && row.jti == jti ==> row == r.value
    ensures r == Failure(NoResultFound) <==> forall row :: row in table ==> row.jti != jti
    ensures |Rows(table, jti)| == 1 ==> r == Success(Rows(table, jti)[0])
    ensures r == Failure(MultipleResultsFound) <==> |Rows(table, jti)| > 1
  {
    var rows := Rows(table, jti);
    if |rows| == 0 then Failure(NoResultFound)
    else if |rows| > 1 then assert rows[0] in rows; Failure(MultipleResultsFound)
    else Success(rows[0])
  }

  /** `add_token_to_db`: stores the token as a new, unrevoked row. */
  function AddTokenToDb(table: Table, token: DecodedToken): (r: Table)
    ensures |r| == |table| + 1 && r[..|table|] == table
    ensures r[|table|].jti == token.jti && !r[|table|].revoked && r[|table|].expires == token.exp
    ensures r[|table|].tokenType == token.tokenType && r[|table|].userId == token.userId
  {
    table + [TokenRow(token.jti, token.tokenType, token.userId, token.exp, false)]
  }

  /** `is_token_revoked`: the row's flag; a token with no row counts as
      revoked; several rows make `.one()` raise. */
  function IsTokenRevoked(table: Table, jti: string): (r: Result<bool, LookupError>)
    ensures (forall row :: row in table ==> row.jti != jti) ==> r == Success(true)
    ensures r == Success(false) ==> exists row :: row in table && row.jti == jti && !row.revoked
    ensures |Rows(table, jti)| == 1 ==> r == Success(Rows(table, jti)[0].revoked)
    ensures r.Failure? <==> |Rows(table, jti)| > 1
    ensures r.Failure? ==> r.error == MultipleResultsFound
  {
    match One(table, jti)
    case Success(row) => Success(row.revoked)
    case Failure(NoResultFound) => Success(true)
    case Failure(MultipleResultsFound) => Failure(MultipleResultsFound)
  }

  /** `prune_db`: deletes every row whose expiry lies strictly before `now`. */
  function PruneDb(table: Table, now: int): (r: Table)
    ensures |r| <= |table|
    ensures forall row :: row in r <==> row in table && now <= row.expires
  {
    if |table| == 0 then []
    else
      (if table[0].expires < now then [] else [table[0]]) + PruneDb(table[1..], now)
  }

  /** Sets `revoked` on every row with the given `jti`. */
  function SetRevoked(table: Table, jti: string): (r: Table)
    ensures |r| == |table|
    ensures forall i :: 0 <= i < |table| ==>
      r[i] == if table[i].jti == jti then table[i].(revoked := true) else table[i]
  {
    if |table| == 0 then []
    else [if table[0].jti == jti then table[0].(revoked := true) else table[0]] + SetRevoked(table[1..], jti)
  }

  /** `revoke_token`: prunes (and commits the prune), then flags the single
      remaining row of the token or raises. */
  function RevokeToken(table: Table, jti: string, now: int): (r: (Table, Outcome<RevokeError>))
    ensures r.1 == Fail(TokenNotFound) <==> forall row :: row in table && row.jti == jti ==> row.expires < now
    ensures r.1 == Fail(Uncaught(MultipleResultsFound)) <==> |Rows(PruneDb(table, now), jti)| > 1
    ensures r.1 == Pass <==> |Rows(PruneDb(table, now), jti)| == 1
    ensures r.1 != Pass ==> r.0 == PruneDb(table, now)
    ensures |r.0| == |PruneDb(table, now)|
    ensures forall i :: 0 <= i < |r.0| ==>
      r.0[i].(revoked := PruneDb(table, now)[i].revoked) == PruneDb(table, now)[i]
    ensures forall i :: 0 <= i < |r.0| ==> PruneDb(table, now)[i].revoked ==> r.0[i].revoked
  {
    var pruned := PruneDb(table, now);
    match One(pruned, jti)
    case Success(_) => (SetRevoked(pruned, jti), Pass)
    case Failure(NoResultFound) => (pruned, Fail(TokenNotFound))
    case Failure(MultipleResultsFound) => (pruned, Fail(Uncaught(MultipleResultsFound)))
  }

  /** Pruning is the `.all()` filter on `expires >= now`: the unexpired rows,
      every copy, in table order. */
  lemma {:induction false} PruneIsFilter(table: Table, now: int)
    ensures PruneDb(table, now) == DbUtils.Filter(table, (row: TokenRow) => now <= row.expires)
    decreases |table|
  {
    if |table| > 0 {
      PruneIsFilter(table[1..], now);
    }
  }

  /** Pruning keeps every copy of an unexpired row and no copy of an expired
      one; live duplicates survive. */
  lemma PruneKeepsCopies(table: Table, now: int)
    ensures forall row :: multiset(PruneDb(table, now))[row] == if now <= row.expires then multiset(table)[row] else 0
  {
    PruneIsFilter(table, now);
  }

  // ----- How each operation changes the rows of one token -----

  lemma {:induction false} RowsOfAppend(table: Table, row: TokenRow, jti: string)
    ensures Rows(table + [row], jti) == Rows(table, jti) + (if row.jti == jti then [row] else [])
    decreases |table|
  {
    if |table| > 0 {
      assert (table + [row])[1..] == table[1..] + [row];
      RowsOfAppend(table[1..], row, jti);
    }
  }

  lemma {:induction false} RowsOfPrune(table: Table, now: int, jti: string)
    ensures Rows(PruneDb(table, now), jti) == PruneDb(Rows(table, jti), now)
    decreases |table|
  {
    if |table| > 0 {
      RowsOfPrune(table[1..], now, jti);
      var head := if table[0].expires < now then [] else [table[0]];
      RowsOfConcat(head, PruneDb(table[1..], now), jti);
      var match0 := if table[0].jti == jti then [table[0]] else [];
      PruneOfConcat(match0, Rows(table[1..], jti), now);
    }
  }

  lemma {:induction false} RowsOfConcat(a: Table, b: Table, jti: string)
    ensures Rows(a + b, jti) == Rows(a, jti) + Rows(b, jti)
    decreases |a|
  {
    if |a| > 0 {
      assert (a + b)[1..] == a[1..] + b;
      RowsOfConcat(a[1..], b, jti);
    } else {
      assert a + b == b;
    }
  }

  lemma {:induction false} PruneOfConcat(a: Table, b: Table, now: int)
    ensures PruneDb(a + b, now) == PruneDb(a, now) + PruneDb(b, now)
    decreases |a|
  {
    if |a| > 0 {
      assert (a + b)[1..] == a[1..] + b;
      PruneOfConcat(a[1..], b, now);
    } else {
      assert a + b == b;
    }
  }

  lemma {:induction false} RowsOfSetRevoked(table: Table, jti: string, other: string)
    ensures Rows(SetRevoked(table, jti), other) ==
      if other == jti then SetRevoked(Rows(table, jti), jti) else Rows(table, other)
    decreases |table|
  {
    if |table| > 0 {
      RowsOfSetRevoked(table[1..], jti, other);
      var head := [if table[0].jti == jti then table[0].(revoked := true) else table[0]];
      assert SetRevoked(table, jti) == head + SetRevoked(table[1..], jti);
      RowsOfConcat(head, SetRevoked(table[1..], jti), other);
    }
  }

  // ----- Properties of the revocation list -----

  /** A freshly added token is not revoked, provided no row already holds
      its `jti`. */
  lemma AddedTokenIsLive(table: Table, token: DecodedToken)
    requires forall row :: row in table ==> row.jti != token.jti
    ensures IsTokenRevoked(AddTokenToDb(table, token), token.jti) == Success(false)
  {
    var row := TokenRow(token.jti, token.tokenType, token.userId, token.exp, false);
    RowsOfAppend(table, row, token.jti);
    NoRowsForAbsentToken(table, token.jti);
    assert Rows(AddTokenToDb(table, token), token.jti) == [row];
  }

  lemma {:induction false} NoRowsForAbsentToken(table: Table, jti: string)
    requires forall row :: row in table ==> row.jti != jti
    ensures Rows(table, jti) == []
    decreases |table|
  {
    if |table| > 0 {
      assert table[0] in table;
      assert forall row :: row in table[1..] ==> row in table;
      NoRowsForAbsentToken(table[1..], jti);
    }
  }

  /** Adding a token leaves the answer for every other token unchanged. */
  lemma AddKeepsOtherTokens(table: Table, token: DecodedToken, other: string)
    requires other != token.jti
    ensures IsTokenRevoked(AddTokenToDb(table, token), other) == IsTokenRevoked(table, other)
  {
    var row := TokenRow(token.jti, token.tokenType, token.userId, token.exp, false);
    RowsOfAppend(table, row, other);
  }

  /** Adding a token whose `jti` is already stored leaves two rows for it,
      so the revocation check right after the add raises.  It keeps raising
      while both rows are unexpired; pruning can drop one of them. */
  lemma AddedDuplicateBreaksLookup(table: Table, token: DecodedToken)
    requires exists row :: row in table && row.jti == token.jti
    ensures IsTokenRevoked(AddTokenToDb(table, token), token.jti) == Failure(MultipleResultsFound)
  {
    var row := TokenRow(token.jti, token.tokenType, token.userId, token.exp, false);
    RowsOfAppend(table, row, token.jti);
    var stored :| stored in table && stored.jti == token.jti;
    assert stored in Rows(table, token.jti);
  }

  /** The duplicate keeps breaking the check through any pruning that leaves
      both rows in place. */
  lemma DuplicateSurvivesPrune(table: Table, token: DecodedToken, now: int)
    requires exists row :: row in table && row.jti == token.jti && now <= row.expires
    requires now <= token.exp
    ensures IsTokenRevoked(PruneDb(AddTokenToDb(table, token), now), token.jti) == Failure(MultipleResultsFound)
  {
    var row := TokenRow(token.jti, token.tokenType, token.userId, token.exp, false);
    RowsOfPrune(AddTokenToDb(table, token), now, token.jti);
    RowsOfAppend(table, row, token.jti);
    PruneOfConcat(Rows(table, token.jti), [row], now);
    var stored :| stored in table && stored.jti == token.jti && now <= stored.expires;
    assert stored in PruneDb(Rows(table, token.jti), now);
    assert PruneDb([row], now) == [row] + PruneDb([], now);
  }

  /** After a successful `revoke_token` the token reads as revoked. */
  lemma RevokeMarksRevoked(table: Table, jti: string, now: int)
    requires RevokeToken(table, jti, now).1 == Pass
    ensures IsTokenRevoked(RevokeToken(table, jti, now).0, jti) == Success(true)
  {
    var pruned := PruneDb(table, now);
    var rows := Rows(pruned, jti);
    assert One(pruned, jti).Success?;
    assert |rows| == 1;
    RowsOfSetRevoked(pruned, jti, jti);
    var marked := SetRevoked(rows, jti);
    assert |marked| == 1 && marked[0] == rows[0].(revoked := true);
    assert Rows(RevokeToken(table, jti, now).0, jti) == marked;
  }

  /** `revoke_token` leaves every other token answering as after pruning. */
  lemma RevokeKeepsOtherTokens(table: Table, jti: string, now: int, other: string)
    requires other != jti
    ensures IsTokenRevoked(RevokeToken(table, jti, now).0, other) == IsTokenRevoked(PruneDb(table, now), other)
  {
    var pruned := PruneDb(table, now);
    assert RevokeToken(table, jti, now).0 == if One(pruned, jti).Success? then SetRevoked(pruned, jti) else pruned;
    RowsOfSetRevoked(pruned, jti, other);
  }

  /** Pruning makes a token whose rows have all expired read as revoked. */
  lemma PruneRevokesExpired(table: Table, now: int, jti: string)
    requires forall row :: row in table && row.jti == jti ==> row.expires < now
    ensures IsTokenRevoked(PruneDb(table, now), jti) == Success(true)
  {
  }

  /** Pruning does not change the answer for a token none of whose rows has
      expired. */
  lemma {:induction false} PruneKeepsLiveTokens(table: Table, now: int, jti: string)
    requires forall row :: row in table && row.jti == jti ==> now <= row.expires
    ensures IsTokenRevoked(PruneDb(table, now), jti) == IsTokenRevoked(table, jti)
  {
    RowsOfPrune(table, now, jti);
    PruneKeepsAll(Rows(table, jti), now);
  }

  lemma {:induction false} PruneKeepsAll(table: Table, now: int)
    requires forall row :: row in table ==> now <= row.expires
    ensures PruneDb(table, now) == table
    decreases |table|
  {
    if |table| > 0 {
      assert forall row :: row in table[1..] ==> row in table;
      PruneKeepsAll(table[1..], now);
    }
  }

  /** A token that reads as revoked keeps reading as revoked through pruning
      and through revoking any token. */
  lemma RevokedStaysRevoked(table: Table, jti: string, now: int, target: string)
    requires IsTokenRevoked(table, jti) == Success(true)
    ensures IsTokenRevoked(PruneDb(table, now), jti) == Success(true)
    ensures IsTokenRevoked(RevokeToken(table, target, now).0, jti) == Success(true)
  {
    PruneKeepsRevoked(table, now, jti);
    if target != jti {
      RevokeKeepsOtherTokens(table, target, now, jti);
    } else if RevokeToken(table, target, now).1 == Pass {
      RevokeMarksRevoked(table, target, now);
    }
  }

  lemma {:induction false} PruneKeepsRevoked(table: Table, now: int, jti: string)
    requires IsTokenRevoked(table, jti) == Success(true)
    ensures IsTokenRevoked(PruneDb(table, now), jti) == Success(true)
  {
    RowsOfPrune(table, now, jti);
    var rows := Rows(table, jti);
    if |rows| == 1 {
      assert rows == [rows[0]];
      assert PruneDb(rows, now) == (if rows[0].expires < now then [] else [rows[0]]) + PruneDb([], now);
    }
  }

  /** Pruning at a later instant subsumes pruning at an earlier one. */
  lemma {:induction false} PruneLaterSubsumes(table: Table, earlier: int, later: int)
    requires earlier <= later
    ensures PruneDb(PruneDb(table, earlier), later) == PruneDb(table, later)
    decreases |table|
  {
    if |table| > 0 {
      PruneLaterSubsumes(table[1..], earlier, later);
      var head := if table[0].expires < earlier then [] else [table[0]];
      PruneOfConcat(head, PruneDb(table[1..], earlier), later);
    }
  }
}

=== FILE: wrappers.dfy ===
/** Failure-compatible wrappers shared by every module of the model:
    `Option` for Python's `None`-or-value returns, `Result` for values that
    may instead raise, and `Outcome` for state changes that may raise. */
module Wrappers {

  datatype Option<+T> = None | Some(value: T) {

    predicate IsFailure() {
      None?
    }

    function PropagateFailure<U>(): Option<U>
      requires None?
    {
      None
    }

    function Extract(): T
      requires Some?
    {
      value
    }
  }

  datatype Result<+R, +E> = Success(value: R) | Failure(error: E) {

    predicate IsFailure() {
      Failure?
    }

    function PropagateFailure<U>(): Result<U, E>
      requires Failure?
    {
      Failure(error)
    }

    function Extract(): R
      requires Success?
    {
      value
    }
  }

  datatype Outcome<+E> = Pass | Fail(error: E)
}
